=== FILE: README.md ===
# DocSync: a model of the page controller and the Flask back end

DocSync reads a public GitHub repository and produces two things: a
README.md written by a language model, and a short list of bugs and
improvements. It can also commit the README back to the repository. The
system has two parts.

- A single-page front end (`docsync-main/script.js`). It holds three
  session variables: `fullReadmeContent`, `currentRepoUrl` and
  `analysisHasBeenPerformed`. It switches between screens, guards the menu,
  calls the back end and animates the README as it is typed.
- A Flask back end (`app.py`) with two routes:
  - `/analyze` validates the URL and derives owner and repository from it. It
    walks the repository through the GitHub contents API and collects files
    with supported extensions, each truncated to 2500 characters. It then asks
    the model for a README and for a JSON bug list, and cleans the code fences
    from the bug reply.
  - `/commit` reads the current README.md to learn its `sha`, then writes the
    new one.

The model is split into modules:

- `Base`: optional values, results and the bug record.
- `Text`: the Python and JavaScript string operations the code relies on.
  These are `strip`, `rstrip("/")`, `split`, `join`, `indexOf`, and `replace`
  in its JavaScript (first occurrence) and Python (all occurrences) forms.
- `RepoUrl`: `obter_dono_e_repositorio` and the name the page displays.
- `Collect`: the recursive collection over an abstract repository tree.
- `Backend`: the two routes.
- `Typing`: the typing animation.
- `Frontend`: the page as a state machine whose events are menu clicks,
  analyze clicks, commit clicks and consent changes.

External services become parameters:

- The GitHub API becomes a tree of listings, or functions from request to
  reply.
- The language model becomes its reply text or the exception it raised.
- `json.loads` becomes a function from text to a JSON shape.
- `fetch` becomes a function from what the page posts to what it gets back.

Alerts and opened windows are recorded as sequences in the page state.
"Nothing happens" is therefore stated as equality of states, and "no request
is made" as independence from the reply function.

`script.js` as written does not parse: the body of `populateBugList` is never
closed, so every later handler is nested inside it. The model follows the
evident intent, with each handler registered at the top level. An empty bug
list shows the "no problems" placeholder. A non-empty list goes to a renderer
whose code is absent, so the model only records that the list was handed over
(`Frontend.BugPanel`).

## Model

| member | source | states |
|---|---|---|
| Text.Strip | Oracle_B3/app.py:127 | Python `str.strip()`: the result starts and ends with a non-whitespace character (Python's `isspace` set), and it is empty exactly when the input is all whitespace |
| Text.StripUnique | Oracle_B3/app.py:127 | strip removes exactly the whitespace margins: whitespace head + core + whitespace tail strips to the core |
| Text.Split | Oracle_B3/app.py:37 | `split("/")`: at least one piece, no piece holds the separator, joining the pieces gives the input back, and the input has no separator iff the result is the input alone |
| Text.Join | Oracle_B3/docsync-main/script.js:118 | `join('/')`: the joined text starts with the first piece |
| Text.JoinEndsWithLast | Oracle_B3/docsync-main/script.js:118 | the joined text ends with the last piece |
| Text.SplitJoin | Oracle_B3/docsync-main/script.js:118 | `split` inverts `join` on separator-free pieces, so the display name's split/join round-trips |
| Text.IndexOf | Oracle_B3/docsync-main/script.js:118 | JavaScript `indexOf`: -1 exactly when the pattern does not occur; otherwise the pattern is at that position and nowhere earlier |
| Text.ReplaceFirst | Oracle_B3/docsync-main/script.js:118 | JavaScript `replace` with a string pattern: a text without the pattern is unchanged; otherwise one occurrence is replaced, so the length changes by the difference of the two lengths |
| Text.ReplaceFirstAt | Oracle_B3/docsync-main/script.js:118 | JavaScript `replace` with a string pattern replaces the first occurrence only and keeps the rest |
| Text.ReplaceAll | Oracle_B3/app.py:135 | Python `replace` of every occurrence: a text without the pattern is unchanged, replacing a pattern by itself changes nothing, and a replacement of the pattern's length keeps the length |
| Text.TrimEnd | Oracle_B3/app.py:37 | `rstrip`: the result is a prefix, everything removed is a dropped character, and the result does not end with one |
| Text.TrimEndUnique | Oracle_B3/app.py:37 | `rstrip("/")` removes exactly the trailing run of slashes |
| RepoUrl.DropGitSuffix | Oracle_B3/app.py:39-40 | `repo[:-4]` after `endswith(".git")`: a name ending in `.git` loses exactly that suffix, and any other name is kept |
| RepoUrl.GitSuffixRemovedOnce | Oracle_B3/app.py:39-40 | a `.git` suffix is removed once (`x.git.git` keeps one) and a name not ending in `.git` is unchanged |
| RepoUrl.OwnerAndRepo | Oracle_B3/app.py:35-43 | the parse fails (the `(None, None)` of the `except`) exactly when no `/` is left after stripping trailing slashes; owner and repository never contain `/` |
| RepoUrl.LastTwoSegments | Oracle_B3/app.py:35-43 | owner and repository are the last two segments, whatever trailing slashes follow, with `.git` dropped from the repository |
| RepoUrl.TooFewSegments | Oracle_B3/app.py:36-43 | a URL with no `/`, or made only of slashes, yields no owner and repository |
| RepoUrl.AgreeOnPlainUrl | Oracle_B3/docsync-main/script.js:118 | on `…/owner/name` with no `.git`, the back end's pair and the page's display name `owner/name` agree |
| RepoUrl.AgreeOnGitUrl | Oracle_B3/docsync-main/script.js:118 | on `…/owner/name.git` both readings drop the suffix and agree |
| RepoUrl.DivergeOnTrailingSlash | Oracle_B3/docsync-main/script.js:118 | with a trailing slash the back end still finds owner and repository, but the page displays `name/` |
| RepoUrl.DivergeOnInnerGit | Oracle_B3/docsync-main/script.js:118 | a `.git` inside the owner is removed by the page's first-occurrence `replace` only (`o.gitx/r` displays as `ox/r`) |
| RepoUrl.DisplayName | Oracle_B3/docsync-main/script.js:118 | the page's repository name is never longer than the URL, and a URL without `/` is shown with its first `.git` removed |
| RepoUrl.DisplayOfLastTwo | Oracle_B3/docsync-main/script.js:118 | a URL whose last two segments are `owner` and `name` is shown as `owner/name` with its first `.git` removed, whatever precedes them |
| RepoUrl.LastTwo | Oracle_B3/docsync-main/script.js:118 | `slice(-2)`: the last two elements, or all of them when there are fewer |
| Collect.EndsWithAny | Oracle_B3/app.py:61 | `endswith` with a tuple holds iff the name ends with one of the suffixes |
| Collect.NoDotNotSupported | Oracle_B3/app.py:24-31 | every supported extension begins with a dot, so a name without a dot is never read |
| Collect.SupportedExamples | Oracle_B3/app.py:24-31 | `README.md` and `main.py` pass the extension filter, `Makefile` does not |
| Collect.Truncate | Oracle_B3/app.py:64 | `conteudo[:2500]` is a prefix of the content, of length min(length, 2500) |
| Collect.Section | Oracle_B3/app.py:64 | each file contributes its header followed by a prefix of its content, of length min(length, 2500) |
| Collect.CollectListing | Oracle_B3/app.py:52-67 | the aggregate of a listing equals the sections of the files the walk reads in pre-order (supported extension, non-empty content); a failed listing contributes nothing |
| Collect.CollectItems | Oracle_B3/app.py:57-66 | the aggregate of the entries of one listing is the sections of their files in order |
| Collect.CollectItem | Oracle_B3/app.py:58-66 | a directory contributes the sections of its subtree, a supported file with content its own section, anything else nothing |
| Collect.SectionsAppend | Oracle_B3/app.py:59-66 | the aggregate of two runs of files is the concatenation of their aggregates |
| Collect.CollectEmptyIffNoReads | Oracle_B3/app.py:55-56 | the aggregate is empty exactly when no file is read; a failed root listing gives the empty text |
| Backend.RepositoryOf | Oracle_B3/app.py:80-82 | the URL is accepted only when the parse gives a non-empty owner and repository |
| Backend.NoFenceAfterRemoval | Oracle_B3/app.py:135 | after `replace("```", "")` no triple backtick is left, even where removal joins the text on both sides of a fence |
| Backend.CleanReply | Oracle_B3/app.py:135 | the text given to `json.loads` holds no triple backtick |
| Backend.CleanFencedReply | Oracle_B3/app.py:133-136 | a reply that is JSON wrapped in a `json` fence, with any whitespace around it, is cleaned to exactly that JSON when it holds no backtick |
| Backend.CleanUnfencedReply | Oracle_B3/app.py:135 | a reply without a fence is only stripped of surrounding whitespace |
| Backend.BugsOf | Oracle_B3/app.py:133-144 | the bug reply fails exactly when it parses to a JSON value that is not an object (`.get` raises); a decode error or a missing `bugs` key gives no bugs; an object's `bugs` list is returned as given |
| Backend.Generate | Oracle_B3/app.py:123-148 | past validation the status is 200 or 500; 200 exactly when both model calls answer and the bug reply is usable, with the stripped README and the bugs; every 500 carries the Gemini error prefix, and a failing README call reports its exception |
| Backend.Analyze | Oracle_B3/app.py:73-148 | the status is 200, 400, 404 or 500; it is 400 iff `repo_url` is missing or empty or names no repository; 404 iff the request is valid but no file is read; on 200 the body carries the stripped README; every other status carries an `error` |
| Backend.ValidRequestGenerates | Oracle_B3/app.py:80-86 | a valid URL whose tree yields a file goes on to the model calls |
| Backend.GeneratedAnalysis | Oracle_B3/app.py:133-145 | a decode error or a missing `bugs` key gives an empty list; an object gives its list; a JSON value that is not an object makes `.get` raise and gives 500 |
| Backend.ModelFailure | Oracle_B3/app.py:123-148 | a failing model call gives 500 with "Erro durante a análise com Gemini: " and the exception's message |
| Backend.RefusedAnalysisCallsNothing | Oracle_B3/app.py:75-82 | a refused request gives the same response whatever GitHub and the model would return |
| Backend.RefusedUrlExamples | Oracle_B3/app.py:76-82 | no URL, an empty URL, `/r` and `o/.git` are all refused with 400 |
| Backend.CommitReadme | Oracle_B3/app.py:151-175 | the status is 200, 400 or 500; it is 400 iff URL or content is missing or the URL names no repository, and exactly then no GitHub call is made; at most one GET and one PUT; 200 only after both, with the success message in the body |
| Backend.CommitDecisionTable | Oracle_B3/app.py:161-175 | the GET always comes first; on 200 its `sha` goes into the payload, on 404 no `sha` is sent, any other status gives 500 without a PUT; the route succeeds iff the PUT answers 200 or 201, and then answers the success message with the `html_url` of the PUT reply |
| Backend.RequestFailure | Oracle_B3/app.py:75-76 | a body that is not JSON gives 400, one not declared as JSON 415, and a JSON value that is not an object 500, each as Flask's error page |
| Backend.AnalyzeRequest | Oracle_B3/app.py:75-82 | a string `repo_url` goes through the route's checks; a falsy non-string one is refused as missing, a truthy one (such as `5`) as naming no repository; only a non-object body gives Flask's error page |
| Backend.CommitRequest | Oracle_B3/app.py:153-164 | string fields go through the route's checks; a non-string URL is refused with 400; a non-string README behind a valid URL raises at `.encode` and gives 500 with no GitHub call |
| Backend.NonTextUrlCallsNothing | Oracle_B3/app.py:75-82 | a request without a string URL gets 400, 415 or 500 whatever GitHub and the model would answer |
| Backend.AnalyzeRequestExamples | Oracle_B3/app.py:75-82 | `repo_url: 5` gives the no-repository 400, `repo_url: 0` the missing-URL 400, and a JSON list Flask's 500 |
| Backend.NonTextReadmeExample | Oracle_B3/app.py:156-164 | a numeric README behind a valid URL passes validation, raises at `.encode` and gives 500 with no GitHub call |
| Typing.Units | Oracle_B3/docsync-main/script.js:82-83 | a character is one UTF-16 unit below U+10000 and otherwise a high surrogate followed by a low surrogate, and the units decode back to the character |
| Typing.Utf16 | Oracle_B3/docsync-main/script.js:82-83 | a string as the page indexes it: at least one unit per character, and exactly one per character iff every character is in the Basic Multilingual Plane |
| Typing.Utf16Single | Oracle_B3/docsync-main/script.js:82-83 | a one-character string is encoded as that character's units |
| Typing.Utf16Append | Oracle_B3/docsync-main/script.js:82-83 | the encoding of a concatenation is the concatenation of the encodings, so each character contributes exactly its own units in order |
| Typing.TypingFrames | Oracle_B3/docsync-main/script.js:79-88 | one frame per UTF-16 unit (`length` and `[i]` count units), holding the prefix up to it with the cursor, then the whole text without the cursor |
| Typing.TypeReadme | Oracle_B3/docsync-main/script.js:79-88 | the loop that grows the text one UTF-16 unit at a time produces exactly those frames |
| Typing.FramesGrowByOne | Oracle_B3/docsync-main/script.js:82-87 | each frame extends the previous one by one unit, and only the last frame lacks the cursor |
| Typing.TypingAB | Oracle_B3/docsync-main/script.js:79-88 | typing `AB` shows `A` and `AB` with the cursor, then `AB` without it |
| Typing.BmpFrameCount | Oracle_B3/docsync-main/script.js:82 | a text of Basic Multilingual Plane characters takes one frame per character plus the final one |
| Typing.TypingRocket | Oracle_B3/docsync-main/script.js:82-84 | U+1F680 gives three frames: two with the cursor, the first holding only its high surrogate, then the final frame without the cursor |
| Frontend.FetchAnalysis | Oracle_B3/docsync-main/script.js:39-54 | only an OK reply succeeds; its README is never empty (an empty one becomes the placeholder) and missing bugs become an empty list; a non-OK reply fails with its `error` or, without a non-empty one, the default message; a thrown `fetch` or `json()` fails with its own message |
| Frontend.FetchCommit | Oracle_B3/docsync-main/script.js:56-70 | only an OK reply succeeds; a non-OK reply fails with its non-empty `error` or else the default message; a thrown `fetch` or `json()` fails with its own message |
| Frontend.ShowScreen | Oracle_B3/docsync-main/script.js:73-77 | at most one screen is visible afterwards: the requested one if it exists, none otherwise |
| Frontend.FirstItem | Oracle_B3/docsync-main/script.js:126 | `querySelector` finds the first menu item with the target, or none iff no item has it |
| Frontend.Navigate | Oracle_B3/docsync-main/script.js:137-153 | input and complexity are always reachable; other targets are reachable only after an analysis; a refused click only raises the alert and changes neither the visible screen nor the active item |
| Frontend.AlwaysReachableIgnoresFlag | Oracle_B3/docsync-main/script.js:141-144 | for input and complexity the outcome of a click is the same whatever the analysis flag is |
| Frontend.AnalyzePending | Oracle_B3/docsync-main/script.js:108-110 | while the analysis request is in flight the spinner shows and the button is disabled, and the session is untouched |
| Frontend.ShowAnalysis | Oracle_B3/docsync-main/script.js:113-126 | a successful analysis replaces the session with the README, URL and set flag, shows the README screen, types the README, sets the display name, hands the reply's bug list to the panel (or shows the placeholder for an empty one), and leaves the opened windows and the commit button alone; the readme item becomes the only active item, or, when the menu has none, `querySelector` yields null and the one alert reports the throw |
| Frontend.AnalyzeClick | Oracle_B3/docsync-main/script.js:101-135 | an empty URL only raises an alert; a failure only adds the message and restores the button; a success replaces the whole session, shows the README screen, types the README and marks the readme item active, leaving the opened windows and the commit button alone; the button is always restored to `!consent` |
| Frontend.EmptyUrlPostsNothing | Oracle_B3/docsync-main/script.js:102-106 | an empty URL makes no request: the outcome does not depend on the back end's reply |
| Frontend.AnalysisAllOrNothing | Oracle_B3/docsync-main/script.js:113-116 | the session is either kept or replaced by a non-empty README, the non-empty URL used and a set flag |
| Frontend.FailedAnalysisExample | Oracle_B3/docsync-main/script.js:45-48 | a 500 reply with `error: "boom"` leaves the session unchanged and reports "boom" |
| Frontend.CommitPending | Oracle_B3/docsync-main/script.js:161-163 | while the commit request is in flight the label reads "Comitando..." and the button is disabled, and the session is untouched |
| Frontend.CommitClick | Oracle_B3/docsync-main/script.js:159-174 | nothing happens without a URL and README; otherwise the result or error is alerted, a non-empty URL is opened, and the label and button are restored whatever the outcome; nothing else on the page changes |
| Frontend.EmptyCommitPostsNothing | Oracle_B3/docsync-main/script.js:160 | with no URL or README no commit request is made |
| Frontend.CommitOutcomeExamples | Oracle_B3/docsync-main/script.js:165-169 | from an analysed session, a 500 without `error` alerts the default commit message, and an OK reply with a URL alerts its message and opens the URL |
| Frontend.ConsentChanged | Oracle_B3/docsync-main/script.js:97-99 | the analyze button is enabled exactly when consent is given |
| Frontend.Step | Oracle_B3/docsync-main/script.js:97-174 | the handlers never change the page's elements, and only an analyze click can change the session |
| Frontend.Valid | Oracle_B3/docsync-main/script.js:34-36 | the state between events: an analysed session always holds what a commit click needs to proceed |
| Frontend.Init | Oracle_B3/docsync-main/script.js:34-36 | the page starts with an empty session, only the input screen visible, in a valid state |
| Frontend.StepPreservesValid | Oracle_B3/docsync-main/script.js:97-174 | every event keeps at most one visible screen and one active item; an analysed session always has a README and URL to commit; no request is left pending |
| Frontend.AnalyzePreservesValid | Oracle_B3/docsync-main/script.js:101-135 | an analyze click, whatever its outcome, leaves at most one visible screen and one active item, a committable session when the flag is set, and the button no longer busy |
| Frontend.AnalysedSessionCommits | Oracle_B3/docsync-main/script.js:159-174 | after a successful analysis a commit click always reaches the back end and reports exactly one outcome |

## Left out

- HTTP, the GitHub REST calls and the Gemini client are replaced by their results (functions or data passed in). Authentication headers, `dotenv` and CORS are not modelled.
- Logging is not modelled. The `print` calls at app.py:125, 129 and 138 sit inside the outer `try`, so a print that raises (an emoji written to a stdout that is not UTF-8) would also end in the Gemini 500. The model takes printing to succeed.
- base64 encoding and decoding, UTF-8 decoding errors, and `res.json()["content"]` / `["sha"]` raising `KeyError` on an unexpected body are not modelled. A read that fails is `None`, and the GET reply always carries a `sha`.
- `json.loads` is abstracted to a function from text to a JSON shape. Bug entries are carried through unchanged and never inspected, and a non-list `bugs` value is not modelled.
- The prompt texts, and the prompt's "at most 5 problems", are not modelled. They constrain the model, not the code.
- Backend.RequestFailure: the statuses are those of current Flask and Werkzeug (400 for a body that does not parse, 415 for one not declared as JSON). Older versions returned `None` for an undeclared body, which makes `data.get` raise and gives 500. The error page's HTML is not modelled.
- Backend.AnalyzeRequest: a non-string field is reduced to its truthiness. Its JSON type only changes which exception is raised, and every such exception is caught or escapes alike.
- Front end: `marked.parse` and the 5 ms pauses of the typing animation are not modelled. The animation is reduced to the sequence of texts handed to the renderer, and the handlers are not interleaved.
- Front end: the alert prefixes (`Erro ao analisar o repositório: `, `Erro: `) are not modelled. Notices carry the error message itself.
- Frontend.CommitClick: `alert(result.message)` is modelled with a message that is always a string. The back end always sends one on success.
- The copy-to-clipboard button, the pull-request and complexity buttons (which only show "FUNCIONALIDADE FUTURA" alerts) and the bug-detail modal are left out. None touches the session.
- The rendering of a non-empty bug list is left out, because its code is absent from `script.js`.
- Frontend.Navigate: menu items are taken to be the `.sidebar-menu .menu-item` elements. A readme item outside the sidebar is not modelled.

=== FILE: backend.dfy ===
/** The decisions of the Flask back end (`app.py`), with GitHub and the
    language model replaced by their results.

    `Analyze` is the `/analyze` route: request validation, collection of the
    repository text, the two model replies and the cleaning of the bug reply.
    `CommitReadme` is the `/commit` route: validation, then the status-code
    table over the GitHub GET and PUT of `README.md`. */
module Backend {
  import opened Base
  import opened Text
  import opened RepoUrl
  import opened Collect

  const MissingUrlError: string := "A URL do reposit\U{f3}rio \U{e9} obrigat\U{f3}ria."
  const BadUrlError: string := "N\U{e3}o foi poss\U{ed}vel identificar o reposit\U{f3}rio a partir da URL."
  const NoContentError: string := "Nenhum conte\U{fa}do relevante encontrado no reposit\U{f3}rio."
  const ModelErrorPrefix: string := "Erro durante a an\U{e1}lise com Gemini: "
  const MissingCommitDataError: string := "Dados insuficientes para o commit."
  const InvalidCommitUrlError: string := "URL do reposit\U{f3}rio inv\U{e1}lida."
  const CommitMessage: string := "docs: \U{2728} README.md gerado por IA"
  const CommitDoneMessage: string := "README.md comitado com sucesso!"
  const FetchErrorPrefix: string := "Erro ao buscar README existente: "
  const PutErrorPrefix: string := "Erro ao fazer commit no GitHub: "

  const Fence: string := "```"
  const JsonFence: string := "```json"

  /** A JSON response: an HTTP status and its body. */
  datatype Response = Response(status: int, body: Body)

  datatype Body =
    | Error(error: string)
    | Analysis(readme: string, bugs: seq<Bug>)
    | Committed(message: string, url: Option<string>)
    | ErrorPage  // Flask's own error page, for an exception the route lets escape

  /** What `model.generate_content(...).text` produced, or the message of the
      exception it raised. */
  datatype Generation = Generated(text: string) | Raised(message: string)

  /** What `json.loads` made of the cleaned bug reply: a decode error, an
      object (with or without a `bugs` key), or some other JSON value, named
      by its Python type. */
  datatype JsonDoc = Invalid | Object(bugs: Option<seq<Bug>>) | NotObject(typeName: string)

  /** The owner and repository a URL names, when both are non-empty; both
      routes refuse the URL otherwise. */
  function RepositoryOf(url: string): (r: Option<OwnerRepo>)
    ensures r.Some? ==> r.value.owner != "" && r.value.repo != ""
    ensures r.Some? ==> OwnerAndRepo(url) == r
    ensures r.None? ==> OwnerAndRepo(url).None? || OwnerAndRepo(url).value.owner == ""
                        || OwnerAndRepo(url).value.repo == ""
  {
    match OwnerAndRepo(url)
    case None => None
    case Some(p) => if p.owner == "" || p.repo == "" then None else Some(p)
  }

  // ---------------------------------------------------------------------
  // Cleaning of the bug reply

  /** Text that would be removed next by `replace("```", "")`. */
  function RemoveFences(s: string): string {
    ReplaceAll(s, Fence, "")
  }

  predicate StartsWithTwoTicks(s: string) {
    |s| >= 2 && s[0] == '`' && s[1] == '`'
  }

  /** A first character other than a backtick survives removal in place. */
  lemma {:induction false} FirstCharKept(s: string)
    requires s != [] && s[0] != '`'
    ensures RemoveFences(s) != [] && RemoveFences(s)[0] == s[0]
  {
  }

  /** Removal cannot create two leading backticks. */
  lemma {:induction false} NoLeadingTicks(s: string)
    requires !StartsWithTwoTicks(s)
    ensures !StartsWithTwoTicks(RemoveFences(s))
  {
    if |s| >= 3 {
      assert !(Fence <= s);
      var t := RemoveFences(s[1..]);
      assert RemoveFences(s) == [s[0]] + t;
      if s[0] == '`' {
        FirstCharKept(s[1..]);
        assert RemoveFences(s)[1] == t[0] == s[1];
      }
    }
  }

  /** After `replace("```", "")` no triple backtick is left, although removal
      glues together the text on both sides of each fence. */
  lemma {:induction false} NoFenceAfterRemoval(s: string)
    ensures !Contains(RemoveFences(s), Fence)
    decreases |s|
  {
    if |s| >= |Fence| {
      if Fence <= s {
        NoFenceAfterRemoval(s[|Fence|..]);
        assert RemoveFences(s) == "" + RemoveFences(s[|Fence|..]);
        assert "" + RemoveFences(s[|Fence|..]) == RemoveFences(s[|Fence|..]);
      } else {
        var t := RemoveFences(s[1..]);
        NoFenceAfterRemoval(s[1..]);
        var r := [s[0]] + t;
        assert RemoveFences(s) == r;
        assert r[1..] == t;
        if s[0] == '`' {
          assert !StartsWithTwoTicks(s[1..]);
          NoLeadingTicks(s[1..]);
          assert !StartsWithTwoTicks(r[1..]);
        } else {
          assert r[0] != Fence[0];
        }
        assert !(Fence <= r);
      }
    }
  }

  /** `resposta_bugs.text.strip().replace("```json", "").replace("```", "")`:
      the text handed to `json.loads` holds no triple backtick. */
  function CleanReply(text: string): (r: string)
    ensures !Contains(r, Fence)
  {
    var r := RemoveFences(ReplaceAll(Strip(text), JsonFence, ""));
    NoFenceAfterRemoval(ReplaceAll(Strip(text), JsonFence, ""));
    r
  }

  /** A reply that carries no fence is only stripped of surrounding
      whitespace. */
  lemma {:induction false} CleanUnfencedReply(text: string)
    requires !Contains(Strip(text), Fence)
    ensures CleanReply(text) == Strip(text)
  {
    var stripped := Strip(text);
    assert JsonFence == Fence + "json";
    ContainsLonger(stripped, Fence, "json");
    var unjson := ReplaceAll(stripped, JsonFence, "");
    assert unjson == stripped;
    assert RemoveFences(unjson) == unjson;
  }

  /** A fenced JSON reply, with whatever whitespace around it, is cleaned to
      exactly the JSON between the fences, provided the JSON has no backtick. */
  lemma {:induction false} CleanFencedReply(head: string, json: string, tail: string)
    requires AllOf(head, IsSpace) && AllOf(tail, IsSpace)
    requires '`' !in json
    ensures CleanReply(head + JsonFence + json + Fence + tail) == json
  {
    var fenced := JsonFence + json + Fence;
    assert head + JsonFence + json + Fence + tail == head + fenced + tail;
    assert fenced[0] == '`' && fenced[|fenced| - 1] == '`';
    StripUnique(head, fenced, tail);
    OpeningFenceRemoved(json);
    ClosingFenceRemoved(json);
  }

  /** Removing `json` fences from a fenced reply drops the opening fence. */
  lemma {:induction false} OpeningFenceRemoved(json: string)
    requires '`' !in json
    ensures ReplaceAll(JsonFence + json + Fence, JsonFence, "") == json + Fence
  {
    var fenced := JsonFence + json + Fence;
    assert JsonFence <= fenced;
    assert fenced[|JsonFence|..] == json + Fence;
    NoJsonFenceBeforeClosing(json);
    assert ReplaceAll(fenced, JsonFence, "") == "" + ReplaceAll(json + Fence, JsonFence, "");
  }

  /** The closing fence after backtick-free text holds no opening fence. */
  lemma {:induction false} NoJsonFenceBeforeClosing(json: string)
    requires '`' !in json
    ensures !Contains(json + Fence, JsonFence)
    decreases |json|
  {
    var s := json + Fence;
    if json != [] {
      assert s[0] == json[0] && s[1..] == json[1..] + Fence;
      assert !(JsonFence <= s) by { assert JsonFence[0] != s[0]; }
      NoJsonFenceBeforeClosing(json[1..]);
    }
  }

  /** Removing fences from backtick-free text and a closing fence leaves the
      text. */
  lemma {:induction false} ClosingFenceRemoved(json: string)
    requires '`' !in json
    ensures RemoveFences(json + Fence) == json
    decreases |json|
  {
    var s := json + Fence;
    if json == [] {
      assert s == Fence && s[|Fence|..] == [];
    } else {
      assert s[0] == json[0] && s[1..] == json[1..] + Fence;
      assert !(Fence <= s) by { assert Fence[0] != s[0]; }
      ClosingFenceRemoved(json[1..]);
      assert [json[0]] + json[1..] == json;
    }
  }

  /** The `bugs` list the route returns, or the message of the exception
      `bugs_data.get` raises when the reply is JSON but not an object. */
  function BugsOf(reply: string, parse: string -> JsonDoc): (r: Result<seq<Bug>>)
    ensures r.Failure? <==> parse(CleanReply(reply)).NotObject?
    ensures r.Failure? ==> EndsWith(r.message, "' object has no attribute 'get'")
    ensures parse(CleanReply(reply)).Invalid? ==> r == Success([])
    ensures parse(CleanReply(reply)).Object? && parse(CleanReply(reply)).bugs.Some?
            ==> r == Success(parse(CleanReply(reply)).bugs.value)
    ensures parse(CleanReply(reply)).Object? && parse(CleanReply(reply)).bugs.None?
            ==> r == Success([])
  {
    match parse(CleanReply(reply))
    case Invalid => Success([])
    case Object(bugs) => Success(ValueOr(bugs, []))
    case NotObject(typeName) => Failure("'" + typeName + "' object has no attribute 'get'")
  }

  /** The part of `analyze` inside `try`: the two model calls and the reply. */
  function Generate(readmeGen: Generation, bugsGen: Generation, parse: string -> JsonDoc): (r: Response)
    ensures r.status in {200, 500}
    ensures r.status == 200 <==>
              readmeGen.Generated? && bugsGen.Generated? && BugsOf(bugsGen.text, parse).Success?
    ensures r.status == 200 ==>
              r.body == Analysis(Strip(readmeGen.text), BugsOf(bugsGen.text, parse).value)
    ensures r.status == 500 ==> r.body.Error? && ModelErrorPrefix <= r.body.error
    ensures readmeGen.Raised? ==> r.body == Error(ModelErrorPrefix + readmeGen.message)
  {
    match readmeGen
    case Raised(m) => Response(500, Error(ModelErrorPrefix + m))
    case Generated(readmeText) =>
      match bugsGen
      case Raised(m) => Response(500, Error(ModelErrorPrefix + m))
      case Generated(bugsText) =>
        match BugsOf(bugsText, parse)
        case Failure(m) => Response(500, Error(ModelErrorPrefix + m))
        case Success(bugs) => Response(200, Analysis(Strip(readmeText), bugs))
  }

  /** The `/analyze` route. `repos` gives the tree the contents API describes
      for an owner and repository. */
  function Analyze(repoUrl: Option<string>, repos: (string, string) -> Listing,
                   readmeGen: Generation, bugsGen: Generation, parse: string -> JsonDoc): (r: Response)
    ensures r.status in {200, 400, 404, 500}
    ensures r.status == 200 <==> r.body.Analysis?
    ensures r.status != 200 ==> r.body.Error?
    ensures r.status == 400 <==> !Present(repoUrl) || RepositoryOf(repoUrl.value).None?
    ensures r.status == 404 <==>
              (Present(repoUrl) && RepositoryOf(repoUrl.value).Some?
               && ReadsOfListing(repos(RepositoryOf(repoUrl.value).value.owner,
                                       RepositoryOf(repoUrl.value).value.repo)) == [])
    ensures r.status == 200 ==> readmeGen.Generated? && r.body.readme == Strip(readmeGen.text)
  {
    if !Present(repoUrl) then Response(400, Error(MissingUrlError))
    else match RepositoryOf(repoUrl.value)
      case None => Response(400, Error(BadUrlError))
      case Some(target) =>
        var tree := repos(target.owner, target.repo);
        CollectEmptyIffNoReads(tree);
        if CollectListing(tree) == "" then Response(404, Error(NoContentError))
        else Generate(readmeGen, bugsGen, parse)
  }

  /** A refused request makes no GitHub or model call: its response does not
      depend on what those would return. */
  lemma {:induction false} RefusedAnalysisCallsNothing(repoUrl: Option<string>,
                                    repos: (string, string) -> Listing, repos': (string, string) -> Listing,
                                    readmeGen: Generation, readmeGen': Generation,
                                    bugsGen: Generation, bugsGen': Generation,
                                    parse: string -> JsonDoc, parse': string -> JsonDoc)
    requires !Present(repoUrl) || RepositoryOf(repoUrl.value).None?
    ensures Analyze(repoUrl, repos, readmeGen, bugsGen, parse)
         == Analyze(repoUrl, repos', readmeGen', bugsGen', parse')
  {
  }

  /** A request naming a repository whose tree yields some file reaches the
      model calls. */
  lemma {:induction false} ValidRequestGenerates(url: string, repos: (string, string) -> Listing,
                              readmeGen: Generation, bugsGen: Generation, parse: string -> JsonDoc)
    requires RepositoryOf(url).Some?
    requires ReadsOfListing(repos(RepositoryOf(url).value.owner, RepositoryOf(url).value.repo)) != []
    ensures Analyze(Some(url), repos, readmeGen, bugsGen, parse) == Generate(readmeGen, bugsGen, parse)
  {
    var target := RepositoryOf(url).value;
    CollectEmptyIffNoReads(repos(target.owner, target.repo));
    TooFewSegments("");
  }

  /** Past validation, with text collected and both model calls answered,
      the bug reply decides the outcome: a decode error or a missing `bugs`
      key gives an empty list, an object gives its list, and any other JSON
      value makes `bugs_data.get` raise, which the route answers with 500. */
  lemma {:induction false} GeneratedAnalysis(url: string, repos: (string, string) -> Listing,
                          readmeText: string, bugsText: string, parse: string -> JsonDoc)
    requires RepositoryOf(url).Some?
    requires ReadsOfListing(repos(RepositoryOf(url).value.owner, RepositoryOf(url).value.repo)) != []
    ensures var r := Analyze(Some(url), repos, Generated(readmeText), Generated(bugsText), parse);
            var doc := parse(CleanReply(bugsText));
            && (doc.Invalid? ==> r == Response(200, Analysis(Strip(readmeText), [])))
            && (doc.Object? && doc.bugs.None? ==> r == Response(200, Analysis(Strip(readmeText), [])))
            && (doc.Object? && doc.bugs.Some? ==> r == Response(200, Analysis(Strip(readmeText), doc.bugs.value)))
            && (doc.NotObject? ==> r.status == 500)
  {
    ValidRequestGenerates(url, repos, Generated(readmeText), Generated(bugsText), parse);
    GeneratedReplies(readmeText, bugsText, parse);
  }

  lemma {:induction false} GeneratedReplies(readmeText: string, bugsText: string, parse: string -> JsonDoc)
    ensures var r := Generate(Generated(readmeText), Generated(bugsText), parse);
            var doc := parse(CleanReply(bugsText));
            && (doc.Invalid? ==> r == Response(200, Analysis(Strip(readmeText), [])))
            && (doc.Object? ==> r == Response(200, Analysis(Strip(readmeText), ValueOr(doc.bugs, []))))
            && (doc.NotObject? ==> r.status == 500)
  {
  }

  /** A failing model call is reported with status 500 and its message. */
  lemma {:induction false} ModelFailure(url: string, repos: (string, string) -> Listing,
                     readmeGen: Generation, bugsGen: Generation, parse: string -> JsonDoc)
    requires RepositoryOf(url).Some?
    requires ReadsOfListing(repos(RepositoryOf(url).value.owner, RepositoryOf(url).value.repo)) != []
    requires readmeGen.Raised? || (readmeGen.Generated? && bugsGen.Raised?)
    ensures var r := Analyze(Some(url), repos, readmeGen, bugsGen, parse);
            r.status == 500
            && r.body.error == ModelErrorPrefix + (if readmeGen.Raised? then readmeGen.message else bugsGen.message)
  {
    ValidRequestGenerates(url, repos, readmeGen, bugsGen, parse);
  }

  /** The examples of refused URLs: empty, only an owner-less segment, and a
      repository name that is only the `.git` suffix. */
  lemma {:induction false} RefusedUrlExamples(repos: (string, string) -> Listing,
                           readmeGen: Generation, bugsGen: Generation, parse: string -> JsonDoc)
    ensures Analyze(None, repos, readmeGen, bugsGen, parse).status == 400
    ensures Analyze(Some(""), repos, readmeGen, bugsGen, parse).status == 400
    ensures Analyze(Some("/r"), repos, readmeGen, bugsGen, parse).status == 400
    ensures Analyze(Some("o/.git"), repos, readmeGen, bugsGen, parse).status == 400
  {
    assert "" + "" + "/" + "r" + "" == "/r";
    LastTwoSegments("", "", "r", "");
    assert "" + "o" + "/" + ".git" + "" == "o/.git";
    LastTwoSegments("", "o", ".git", "");
    GitSuffixRemovedOnce("");
    assert "" + GitSuffix == ".git";
  }

  // ---------------------------------------------------------------------
  // Commit

  /** The body of the PUT: commit message, file content (the source sends it
      base64-encoded; here it is the text itself) and, when the file exists,
      the blob `sha` it replaces. */
  datatype Payload = Payload(message: string, content: string, sha: Option<string>)

  datatype GitHubCall =
    | GetReadme(owner: string, repo: string)
    | PutReadme(owner: string, repo: string, payload: Payload)

  /** The GET reply: status, the `sha` field of its JSON, and its JSON as
      printed in an error message. */
  datatype GetReply = GetReply(status: int, sha: string, body: string)

  /** The PUT reply: status, `content.html_url` when present, and its JSON as
      printed in an error message. */
  datatype PutReply = PutReply(status: int, htmlUrl: Option<string>, body: string)

  /** The route's response and the GitHub calls it made, in order. */
  datatype CommitOutcome = CommitOutcome(response: Response, calls: seq<GitHubCall>)

  /** The `/commit` route. */
  function CommitReadme(repoUrl: Option<string>, readme: Option<string>,
                        get: (string, string) -> GetReply,
                        put: (string, string, Payload) -> PutReply): (r: CommitOutcome)
    ensures r.response.status in {200, 400, 500}
    ensures r.response.status == 400 <==> r.calls == []
    ensures r.response.status == 400 <==>
              !Present(repoUrl) || !Present(readme) || RepositoryOf(repoUrl.value).None?
    ensures |r.calls| <= 2
    ensures r.response.status == 200 ==> |r.calls| == 2 && r.response.body.Committed?
    ensures r.response.status == 200 ==> r.response.body.message == CommitDoneMessage
    ensures r.response.status != 200 ==> r.response.body.Error?
  {
    if !Present(repoUrl) || !Present(readme) then
      CommitOutcome(Response(400, Error(MissingCommitDataError)), [])
    else match RepositoryOf(repoUrl.value)
      case None => CommitOutcome(Response(400, Error(InvalidCommitUrlError)), [])
      case Some(target) =>
        var fetched := get(target.owner, target.repo);
        var getCall := GetReadme(target.owner, target.repo);
        if fetched.status != 200 && fetched.status != 404 then
          CommitOutcome(Response(500, Error(FetchErrorPrefix + fetched.body)), [getCall])
        else
          var payload := Payload(CommitMessage, readme.value,
                                 if fetched.status == 200 then Some(fetched.sha) else None);
          var stored := put(target.owner, target.repo, payload);
          var calls := [getCall, PutReadme(target.owner, target.repo, payload)];
          if stored.status == 200 || stored.status == 201 then
            CommitOutcome(Response(200, Committed(CommitDoneMessage, stored.htmlUrl)), calls)
          else
            CommitOutcome(Response(500, Error(PutErrorPrefix + stored.body)), calls)
  }

  /** The status-code table of a commit whose request names a repository:
      the GET always happens; 200 puts its `sha` in the payload, 404 leaves it
      out, anything else ends in 500 without a PUT; the PUT succeeds on 200 or
      201 only. */
  lemma {:induction false} CommitDecisionTable(repoUrl: string, readme: string, owner: string, repo: string,
                            get: (string, string) -> GetReply,
                            put: (string, string, Payload) -> PutReply)
    requires readme != ""
    requires RepositoryOf(repoUrl) == Some(OwnerRepo(owner, repo))
    ensures var r := CommitReadme(Some(repoUrl), Some(readme), get, put);
            var g := get(owner, repo);
            && r.calls[0] == GetReadme(owner, repo)
            && (g.status != 200 && g.status != 404 ==> r.calls == [GetReadme(owner, repo)] && r.response.status == 500)
            && (g.status == 200 ==> r.calls[1] == PutReadme(owner, repo, Payload(CommitMessage, readme, Some(g.sha))))
            && (g.status == 404 ==> r.calls[1] == PutReadme(owner, repo, Payload(CommitMessage, readme, None)))
            && (g.status == 200 || g.status == 404 ==>
                  (r.response.status == 200 <==> put(owner, repo, r.calls[1].payload).status in {200, 201}))
            && (r.response.status == 200 ==>
                  r.response.body == Committed(CommitDoneMessage, put(owner, repo, r.calls[1].payload).htmlUrl))
  {
  }

  // ---------------------------------------------------------------------
  // The request body

  /** A field of the request's JSON object: a string, or any other JSON value
      with its Python truthiness (`0`, `false`, `null`, `[]` and `{}` are
      falsy). */
  datatype Field = JsonString(text: string) | JsonOther(truthy: bool)

  /** What `request.json` makes of the body: text that is not JSON (Flask
      answers 400), a body not declared as JSON (415), a JSON value that is
      not an object (so `data.get` raises), or an object with the fields the
      routes read. */
  datatype Request =
    | Malformed
    | NotJson
    | NotAnObject
    | JsonObject(repoUrl: Option<Field>, readmeContent: Option<Field>)

  /** Python's `not not data.get(key)`. */
  predicate Truthy(f: Option<Field>) {
    match f
    case None => false
    case Some(JsonString(t)) => t != ""
    case Some(JsonOther(truthy)) => truthy
  }

  /** The field when it is a string. */
  predicate IsText(f: Option<Field>) {
    f.Some? && f.value.JsonString?
  }

  /** The error Flask answers when `request.json` or `data.get` raises. */
  function RequestFailure(req: Request): (r: Response)
    requires !req.JsonObject?
    ensures r.body == ErrorPage
    ensures r.status == 400 <==> req.Malformed?
    ensures r.status == 415 <==> req.NotJson?
    ensures r.status == 500 <==> req.NotAnObject?
  {
    match req
    case Malformed => Response(400, ErrorPage)
    case NotJson => Response(415, ErrorPage)
    case NotAnObject => Response(500, ErrorPage)
  }

  /** `/analyze` from the request body. A `repo_url` that is not a string is
      refused like a missing one when falsy; when truthy, `rstrip` raises
      inside the parser's `try` and the URL is refused as naming no
      repository. */
  function AnalyzeRequest(req: Request, repos: (string, string) -> Listing,
                          readmeGen: Generation, bugsGen: Generation, parse: string -> JsonDoc): (r: Response)
    ensures r.status in {200, 400, 404, 415, 500}
    ensures r.body.ErrorPage? <==> !req.JsonObject?
    ensures req.JsonObject? && IsText(req.repoUrl)
            ==> r == Analyze(Some(req.repoUrl.value.text), repos, readmeGen, bugsGen, parse)
    ensures req.JsonObject? && !Truthy(req.repoUrl) ==> r == Response(400, Error(MissingUrlError))
    ensures req.JsonObject? && Truthy(req.repoUrl) && !IsText(req.repoUrl)
            ==> r == Response(400, Error(BadUrlError))
  {
    if !req.JsonObject? then RequestFailure(req)
    else match req.repoUrl
      case None => Analyze(None, repos, readmeGen, bugsGen, parse)
      case Some(JsonString(url)) => Analyze(Some(url), repos, readmeGen, bugsGen, parse)
      case Some(JsonOther(truthy)) =>
        Response(400, Error(if truthy then BadUrlError else MissingUrlError))
  }

  /** `/commit` from the request body. A `repo_url` that is not a string is
      refused as invalid once both fields are truthy; a `readme_content` that
      is not a string makes `.encode` raise, after validation and before any
      GitHub call, outside every `try`. */
  function CommitRequest(req: Request, get: (string, string) -> GetReply,
                         put: (string, string, Payload) -> PutReply): (r: CommitOutcome)
    ensures r.response.status in {200, 400, 415, 500}
    ensures r.response.body.ErrorPage? ==> r.calls == []
    ensures r.response.body.ErrorPage? <==>
              !req.JsonObject?
              || (Truthy(req.repoUrl) && Truthy(req.readmeContent) && IsText(req.repoUrl)
                  && RepositoryOf(req.repoUrl.value.text).Some? && !IsText(req.readmeContent))
    ensures req.JsonObject? && IsText(req.repoUrl) && IsText(req.readmeContent)
            ==> r == CommitReadme(Some(req.repoUrl.value.text), Some(req.readmeContent.value.text), get, put)
    ensures r.calls != [] ==> req.JsonObject? && IsText(req.repoUrl) && IsText(req.readmeContent)
    ensures req.JsonObject? && (!Truthy(req.repoUrl) || !Truthy(req.readmeContent))
            ==> r == CommitOutcome(Response(400, Error(MissingCommitDataError)), [])
    ensures req.JsonObject? && Truthy(req.repoUrl) && Truthy(req.readmeContent) && !IsText(req.repoUrl)
            ==> r == CommitOutcome(Response(400, Error(InvalidCommitUrlError)), [])
    ensures req.JsonObject? && Truthy(req.repoUrl) && Truthy(req.readmeContent)
            && IsText(req.repoUrl) && RepositoryOf(req.repoUrl.value.text).Some? && !IsText(req.readmeContent)
            ==> r == CommitOutcome(Response(500, ErrorPage), [])
  {
    if !req.JsonObject? then CommitOutcome(RequestFailure(req), [])
    else
      var url := req.repoUrl;
      var content := req.readmeContent;
      if !Truthy(url) || !Truthy(content) then
        CommitOutcome(Response(400, Error(MissingCommitDataError)), [])
      else if !IsText(url) || RepositoryOf(url.value.text).None? then
        CommitOutcome(Response(400, Error(InvalidCommitUrlError)), [])
      else if !IsText(content) then
        CommitOutcome(Response(500, ErrorPage), [])
      else
        CommitReadme(Some(url.value.text), Some(content.value.text), get, put)
  }

  /** Whatever the body, a request that does not name a repository by a
      string URL reaches neither GitHub nor the model. */
  lemma {:induction false} NonTextUrlCallsNothing(req: Request,
                                repos: (string, string) -> Listing, repos': (string, string) -> Listing,
                                readmeGen: Generation, readmeGen': Generation,
                                bugsGen: Generation, bugsGen': Generation,
                                parse: string -> JsonDoc, parse': string -> JsonDoc)
    requires !req.JsonObject? || !IsText(req.repoUrl)
    ensures AnalyzeRequest(req, repos, readmeGen, bugsGen, parse)
         == AnalyzeRequest(req, repos', readmeGen', bugsGen', parse')
    ensures AnalyzeRequest(req, repos, readmeGen, bugsGen, parse).status in {400, 415, 500}
  {
    if req.JsonObject? && req.repoUrl.None? {
      RefusedAnalysisCallsNothing(None, repos, repos', readmeGen, readmeGen', bugsGen, bugsGen', parse, parse');
    }
  }

  /** The body shapes `/analyze` refuses, with their statuses: `5` as the URL
      is refused as naming no repository, `0` as a missing URL, and a JSON
      value that is not an object ends in Flask's 500. */
  lemma {:induction false} AnalyzeRequestExamples(repos: (string, string) -> Listing, readmeGen: Generation,
                                                  bugsGen: Generation, parse: string -> JsonDoc)
    ensures AnalyzeRequest(JsonObject(Some(JsonOther(true)), None), repos, readmeGen, bugsGen, parse)
         == Response(400, Error(BadUrlError))
    ensures AnalyzeRequest(JsonObject(Some(JsonOther(false)), None), repos, readmeGen, bugsGen, parse)
         == Response(400, Error(MissingUrlError))
    ensures AnalyzeRequest(NotAnObject, repos, readmeGen, bugsGen, parse) == Response(500, ErrorPage)
  {
  }

  /** A numeric README behind a valid URL ends in 500 with no GitHub call. */
  lemma {:induction false} NonTextReadmeExample(get: (string, string) -> GetReply,
                                                put: (string, string, Payload) -> PutReply)
    ensures CommitRequest(JsonObject(Some(JsonString("o/r")), Some(JsonOther(true))), get, put)
         == CommitOutcome(Response(500, ErrorPage), [])
  {
    assert "" + "o" + "/" + "r" + "" == "o/r";
    LastTwoSegments("", "o", "r", "");
    GitSuffixRemovedOnce("r");
  }
}

=== FILE: base.dfy ===
/** Small shared vocabulary: optional values, success-or-error results, and the
    bug record that the back end relays from the language model to the page. */
module Base {

  /** A JSON field or Python/JavaScript value that may be missing
      (`None`, `undefined`, `null`). */
  datatype Option<T> = None | Some(value: T)

  /** The field's value, or `fallback` when it is missing: the `x or default`
      of Python and the `x || default` of JavaScript for a missing list. */
  function ValueOr<T>(field: Option<T>, fallback: T): (r: T)
    ensures field.Some? ==> r == field.value
    ensures field.None? ==> r == fallback
  {
    if field.Some? then field.value else fallback
  }

  /** Truthiness of an optional string, the same in Python and JavaScript:
      present and non-empty. */
  predicate Present(field: Option<string>) {
    field.Some? && field.value != ""
  }

  /** Either a value or the message of the error that replaced it. */
  datatype Result<+T> = Success(value: T) | Failure(message: string)

  /** One entry of the `bugs` list, in the shape the bug prompt asks for.
      Neither side inspects its fields; they are carried through unchanged. */
  datatype Bug = Bug(
    title: string,
    filepath: string,
    severity: string,
    kind: string,
    problem: string,
    suggestion: string)
}

=== FILE: collect.dfy ===
/** `coletar_arquivos_recursivamente` over an abstract repository tree.

    The GitHub contents API is replaced by the tree it would describe: a
    directory listing either failed (any status other than 200) or holds
    items; a file item carries what `ler_arquivo` returned for it (`None` for a
    status other than 200). Each file with a supported extension and non-empty
    content contributes a header naming its path followed by at most 2500
    characters of its content; directories are walked in listing order. */
module Collect {
  import opened Base
  import opened Text

  /** `EXTENSOES_SUPORTADAS`, in the source's order. */
  const Extensions: seq<string> := [
    ".py", ".ipynb", ".js", ".ts", ".jsx", ".tsx",
    ".html", ".css", ".scss",
    ".java", ".kt", ".swift",
    ".cs", ".go", ".php", ".rb", ".rs",
    ".c", ".cpp", ".h",
    ".sql", ".md"
  ]

  /** Characters of each file kept by `conteudo[:2500]`. */
  const ContentLimit: nat := 2500

  datatype Item =
    | File(name: string, path: string, content: Option<string>)
    | Dir(path: string, listing: Listing)
    /** Any other `type` the API reports (symlink, submodule): skipped. */
    | Other(path: string)

  datatype Listing = Failed | Listed(items: seq<Item>)

  /** `name.endswith(EXTENSOES_SUPORTADAS)`. */
  predicate Supported(name: string) {
    EndsWithAny(name, Extensions)
  }

  function EndsWithAny(name: string, suffixes: seq<string>): (r: bool)
    ensures r <==> exists i :: 0 <= i < |suffixes| && EndsWith(name, suffixes[i])
  {
    if suffixes == [] then false
    else if EndsWith(name, suffixes[0]) then true
    else
      var r := EndsWithAny(name, suffixes[1..]);
      assert forall i :: 1 <= i < |suffixes| ==> suffixes[i] == suffixes[1..][i - 1];
      r
  }

  /** Every supported extension starts with a dot, so a name without a dot
      (`Makefile`, `LICENSE`) is never read. */
  lemma {:induction false} NoDotNotSupported(name: string)
    requires '.' !in name
    ensures !Supported(name)
  {
    forall i | 0 <= i < |Extensions| ensures !EndsWith(name, Extensions[i]) {
      var e := Extensions[i];
      assert e[0] == '.';
    }
  }

  lemma {:induction false} SupportedExamples()
    ensures Supported("README.md")
    ensures Supported("main.py")
    ensures !Supported("Makefile")
  {
    assert EndsWith("README.md", Extensions[21]);
    assert EndsWith("main.py", Extensions[0]);
    NoDotNotSupported("Makefile");
  }

  /** `conteudo[:2500]`. */
  function Truncate(content: string): (r: string)
    ensures r <= content
    ensures |r| == if |content| <= ContentLimit then |content| else ContentLimit
  {
    if |content| <= ContentLimit then content else content[..ContentLimit]
  }

  /** The heading written before each file. */
  function Header(path: string): string {
    "\n\n# Arquivo: " + path + "\n\n"
  }

  /** One file's contribution to the aggregate. */
  function Section(path: string, content: string): (r: string)
    ensures Header(path) <= r
    ensures r[|Header(path)|..] <= content
    ensures |r| == |Header(path)| + (if |content| <= ContentLimit then |content| else ContentLimit)
  {
    Header(path) + Truncate(content)
  }

  /** A file is read into the aggregate when its name has a supported
      extension and the read returned non-empty text. */
  predicate Included(it: Item) {
    it.File? && Supported(it.name) && it.content.Some? && it.content.value != ""
  }

  /** A file the walk reads: its path and the text `ler_arquivo` returned. */
  datatype Read = Read(path: string, text: string)

  /** Independent description of the same walk: the files of the tree that
      are read, in pre-order, skipping failed listings. */
  function ReadsOfListing(l: Listing): seq<Read>
    decreases l
  {
    match l
    case Failed => []
    case Listed(items) => ReadsOfItems(items)
  }

  function ReadsOfItems(items: seq<Item>): seq<Read>
    decreases items
  {
    if items == [] then [] else ReadsOfItem(items[0]) + ReadsOfItems(items[1..])
  }

  function ReadsOfItem(it: Item): seq<Read>
    decreases it
  {
    match it
    case File(_, path, content) => if Included(it) then [Read(path, content.value)] else []
    case Dir(_, listing) => ReadsOfListing(listing)
    case Other(_) => []
  }

  /** The sections of a list of files, concatenated. */
  function Sections(files: seq<Read>): string {
    if files == [] then "" else Section(files[0].path, files[0].text) + Sections(files[1..])
  }

  lemma {:induction false} SectionsAppend(a: seq<Read>, b: seq<Read>)
    ensures Sections(a + b) == Sections(a) + Sections(b)
    decreases |a|
  {
    if a != [] {
      assert (a + b)[0] == a[0];
      assert (a + b)[1..] == a[1..] + b;
      SectionsAppend(a[1..], b);
    } else {
      assert a + b == b;
    }
  }

  /** The aggregate text for a directory listing: the sections of the files
      the walk reads, in walk order. */
  function CollectListing(l: Listing): (r: string)
    ensures r == Sections(ReadsOfListing(l))
    decreases l
  {
    match l
    case Failed => ""
    case Listed(items) => CollectItems(items)
  }

  function CollectItems(items: seq<Item>): (r: string)
    ensures r == Sections(ReadsOfItems(items))
    decreases items
  {
    if items == [] then ""
    else
      SectionsAppend(ReadsOfItem(items[0]), ReadsOfItems(items[1..]));
      CollectItem(items[0]) + CollectItems(items[1..])
  }

  function CollectItem(it: Item): (r: string)
    ensures r == Sections(ReadsOfItem(it))
    decreases it
  {
    match it
    case File(name, path, content) =>
      if Included(it) then
        assert Sections([Read(path, content.value)]) == Section(path, content.value) + "";
        Section(path, content.value)
      else ""
    case Dir(_, listing) => CollectListing(listing)
    case Other(_) => ""
  }

  /** The aggregate of a listing is empty exactly when the walk reads no
      file, because every section starts with a non-empty header; a failed
      root listing yields the empty text. */
  lemma {:induction false} CollectEmptyIffNoReads(l: Listing)
    ensures CollectListing(l) == "" <==> ReadsOfListing(l) == []
    ensures l.Failed? ==> CollectListing(l) == ""
  {
    var files := ReadsOfListing(l);
    if files != [] {
      assert |Header(files[0].path)| > 0;
    }
  }
}

=== FILE: frontend.dfy ===
/** The page controller (`script.js`) as a state machine.

    The state is the session record of the page (`fullReadmeContent`,
    `currentRepoUrl`, `analysisHasBeenPerformed`) together with what the
    handlers change on the page: which screens are visible, which menu items
    are active, the alerts shown and windows opened so far, the repository
    name, the bug panel, the frames of the README animation, and the state of
    the analyze and commit buttons. Each event handler is a function from
    state to state; the back end's reply is a parameter, a function of what
    the page posts. */
module Frontend {
  import opened Base
  import opened Typing
  import RepoUrl

  const InputScreen: string := "input-screen"
  const ReadmeScreen: string := "readme-screen"
  const ComplexityScreen: string := "complexity-screen"

  const EmptyReadmePlaceholder: string := "README.md vazio gerado pela IA."
  const UnknownAnalysisError: string := "Erro desconhecido ao gerar o README"
  const UnknownCommitError: string := "Erro desconhecido ao fazer o commit"
  const CommitBusyLabel: string := "<span class=\"spinner-btn\"></span> Comitando..."

  /** The message of the `TypeError` raised when the analysis handler reads
      `classList` of the `null` that `querySelector` returns for a missing
      readme item. The text depends on the browser; this is Chromium's
      (Firefox reports "document.querySelector(...) is null"). */
  const MissingReadmeItemError: string := "Cannot read properties of null (reading 'classList')"

  datatype Session = Session(
    fullReadmeContent: string,
    currentRepoUrl: string,
    analysisHasBeenPerformed: bool)

  /** The fixed part of the page: the ids of the `.screen` elements and the
      `data-target` of each menu item, in document order. */
  datatype Page = Page(screens: set<string>, menu: seq<string>)

  /** One `alert` of the page. */
  datatype Notice =
    | UrlRequired
    | AnalysisFailed(message: string)
    | AnalyzeFirst
    | CommitReport(message: string)
    | CommitFailed(message: string)

  /** The bug list: never filled yet, the "no issues" placeholder, or a
      non-empty list handed to the list renderer (whose code is absent from
      the page script). */
  datatype BugPanel = Untouched | NoIssues | Handed(bugs: seq<Bug>)

  datatype Ui = Ui(
    visible: set<string>,
    active: set<nat>,
    notices: seq<Notice>,
    windows: seq<string>,
    repoName: string,
    bugPanel: BugPanel,
    frames: seq<Frame>,
    consent: bool,
    analyzeDisabled: bool,
    analyzeBusy: bool,
    commitLabel: string,
    commitDisabled: bool)

  datatype State = State(page: Page, session: Session, ui: Ui)

  /** What `fetch` to `/analyze` gave: a thrown error (network failure or a
      body that is not JSON), a non-OK status with the body's `error` field,
      or an OK body with its `bugs` and `readme` fields. */
  datatype AnalyzeReply =
    | AnalyzeThrew(message: string)
    | AnalyzeNotOk(error: Option<string>)
    | AnalyzeOk(bugs: Option<seq<Bug>>, readme: Option<string>)

  /** What `fetch` to `/commit` gave, in the same three shapes. */
  datatype CommitReply =
    | CommitThrew(message: string)
    | CommitNotOk(error: Option<string>)
    | CommitOk(message: string, url: Option<string>)

  datatype AnalysisData = AnalysisData(bugs: seq<Bug>, readme: string)

  /** `fetchAnalysisFromBackend`: the normalised result, or the message of
      the error it throws. */
  function FetchAnalysis(reply: AnalyzeReply): (r: Result<AnalysisData>)
    ensures r.Success? <==> reply.AnalyzeOk?
    ensures r.Success? ==> r.value.readme != ""
    ensures r.Success? ==>
              (Present(reply.readme) ==> r.value.readme == reply.readme.value)
              && (!Present(reply.readme) ==> r.value.readme == EmptyReadmePlaceholder)
              && (reply.bugs.None? ==> r.value.bugs == [])
              && (reply.bugs.Some? ==> r.value.bugs == reply.bugs.value)
    ensures reply.AnalyzeNotOk? ==> r.Failure? && r.message != ""
    ensures reply.AnalyzeNotOk? && Present(reply.error) ==> r.message == reply.error.value
    ensures reply.AnalyzeNotOk? && !Present(reply.error) ==> r.message == UnknownAnalysisError
    ensures reply.AnalyzeThrew? ==> r == Failure(reply.message)
  {
    match reply
    case AnalyzeThrew(m) => Failure(m)
    case AnalyzeNotOk(error) => Failure(if Present(error) then error.value else UnknownAnalysisError)
    case AnalyzeOk(bugs, readme) =>
      Success(AnalysisData(ValueOr(bugs, []), if Present(readme) then readme.value else EmptyReadmePlaceholder))
  }

  /** `commitReadmeToGithub`: the OK body, or the message of the error it
      throws. */
  function FetchCommit(reply: CommitReply): (r: Result<(string, Option<string>)>)
    ensures r.Success? <==> reply.CommitOk?
    ensures r.Success? ==> r.value == (reply.message, reply.url)
    ensures reply.CommitNotOk? ==> r.message != ""
    ensures reply.CommitNotOk? && Present(reply.error) ==> r.message == reply.error.value
    ensures reply.CommitNotOk? && !Present(reply.error) ==> r.message == UnknownCommitError
    ensures reply.CommitThrew? ==> r == Failure(reply.message)
  {
    match reply
    case CommitThrew(m) => Failure(m)
    case CommitNotOk(error) => Failure(if Present(error) then error.value else UnknownCommitError)
    case CommitOk(message, url) => Success((message, url))
  }

  /** `showScreen(id)`: every screen is hidden, then the element with that
      id, if any, is shown. */
  function ShowScreen(page: Page, id: string): (r: set<string>)
    ensures r <= page.screens && |r| <= 1
    ensures id in page.screens ==> r == {id}
    ensures id !in page.screens ==> r == {}
  {
    if id in page.screens then {id} else {}
  }

  /** The first menu item whose target is `target`, as `querySelector`
      finds it. */
  function FirstItem(menu: seq<string>, target: string): (r: Option<nat>)
    ensures r.None? <==> target !in menu
    ensures r.Some? ==> r.value < |menu| && menu[r.value] == target
    ensures r.Some? ==> forall j :: 0 <= j < r.value ==> menu[j] != target
  {
    if menu == [] then None
    else if menu[0] == target then Some(0)
    else
      match FirstItem(menu[1..], target)
      case None => None
      case Some(i) => Some(i + 1)
  }

  /** The screens any visitor may open. */
  predicate AlwaysReachable(target: string) {
    target == InputScreen || target == ComplexityScreen
  }

  /** A click on menu item `item`. */
  function Navigate(s: State, item: nat): (r: State)
    requires item < |s.page.menu|
    ensures r.page == s.page && r.session == s.session
    ensures var target := s.page.menu[item];
            AlwaysReachable(target) || s.session.analysisHasBeenPerformed ==>
              r.ui == s.ui.(visible := ShowScreen(s.page, target), active := {item})
    ensures var target := s.page.menu[item];
            !AlwaysReachable(target) && !s.session.analysisHasBeenPerformed ==>
              r.ui == s.ui.(notices := s.ui.notices + [AnalyzeFirst])
  {
    var target := s.page.menu[item];
    if AlwaysReachable(target) then
      s.(ui := s.ui.(visible := ShowScreen(s.page, target), active := {item}))
    else if s.session.analysisHasBeenPerformed then
      s.(ui := s.ui.(visible := ShowScreen(s.page, target), active := {item}))
    else
      s.(ui := s.ui.(notices := s.ui.notices + [AnalyzeFirst]))
  }

  /** Input and complexity are reachable whatever the analysis flag says:
      the outcome of the click is the same with the flag set and cleared. */
  lemma {:induction false} AlwaysReachableIgnoresFlag(s: State, item: nat)
    requires item < |s.page.menu| && AlwaysReachable(s.page.menu[item])
    ensures Navigate(s, item).ui
         == Navigate(s.(session := s.session.(analysisHasBeenPerformed := !s.session.analysisHasBeenPerformed)), item).ui
    ensures s.page.menu[item] in s.page.screens ==> Navigate(s, item).ui.visible == {s.page.menu[item]}
    ensures Navigate(s, item).ui.active == {item}
  {
  }

  /** The state while the analysis request is in flight: the label is
      replaced by the spinner and the button is disabled. */
  function AnalyzePending(s: State): (r: State)
    ensures r.ui.analyzeBusy && r.ui.analyzeDisabled
    ensures r.session == s.session && r.page == s.page
  {
    s.(ui := s.ui.(analyzeBusy := true, analyzeDisabled := true))
  }

  /** What a successful analysis does to the page, in the handler's order:
      the session is replaced, the README screen shown and typed, and the
      readme menu item marked active. When no menu item targets the README
      screen, the handler throws after the session was replaced, and that
      throw is the only alert. */
  function ShowAnalysis(s: State, url: string, data: AnalysisData): (r: State)
    ensures r.page == s.page && r.session == Session(data.readme, url, true)
    ensures r.ui.visible == ShowScreen(s.page, ReadmeScreen)
    ensures r.ui.frames == TypingFrames(Utf16(data.readme))
    ensures r.ui.repoName == RepoUrl.DisplayName(url)
    ensures r.ui.bugPanel == if data.bugs == [] then NoIssues else Handed(data.bugs)
    ensures |r.ui.active| <= 1
    ensures forall i :: i in r.ui.active ==> i < |s.page.menu| && s.page.menu[i] == ReadmeScreen
    ensures ReadmeScreen in s.page.menu <==> r.ui.notices == s.ui.notices
    ensures ReadmeScreen in s.page.menu <==> |r.ui.active| == 1
    ensures r.ui.windows == s.ui.windows && r.ui.consent == s.ui.consent
    ensures r.ui.commitLabel == s.ui.commitLabel && r.ui.commitDisabled == s.ui.commitDisabled
  {
    var ui := s.ui.(
      repoName := RepoUrl.DisplayName(url),
      bugPanel := if data.bugs == [] then NoIssues else Handed(data.bugs),
      visible := ShowScreen(s.page, ReadmeScreen),
      frames := TypingFrames(Utf16(data.readme)));
    var ui' :=
      match FirstItem(s.page.menu, ReadmeScreen)
      case Some(i) => ui.(active := {i})
      case None => ui.(active := {}, notices := ui.notices + [AnalysisFailed(MissingReadmeItemError)]);
    State(s.page, Session(data.readme, url, true), ui')
  }

  /** A click on the analyze button with `input` in the URL field. */
  function AnalyzeClick(s: State, input: string, post: string -> AnalyzeReply): (r: State)
    ensures r.page == s.page
    // A disabled button dispatches no click.
    ensures s.ui.analyzeDisabled ==> r == s
    // An empty URL: a notice and nothing else.
    ensures !s.ui.analyzeDisabled && input == "" ==>
              r == s.(ui := s.ui.(notices := s.ui.notices + [UrlRequired]))
    // Whatever the outcome of the request, the button is restored.
    ensures !s.ui.analyzeDisabled && input != "" ==>
              !r.ui.analyzeBusy && r.ui.analyzeDisabled == !s.ui.consent && r.ui.consent == s.ui.consent
    // A failed request changes neither the session nor the view: it adds
    // the notice and restores the button, and nothing else.
    ensures !s.ui.analyzeDisabled && input != "" && FetchAnalysis(post(input)).Failure? ==>
              r == s.(ui := s.ui.(notices := s.ui.notices + [AnalysisFailed(FetchAnalysis(post(input)).message)],
                                  analyzeBusy := false, analyzeDisabled := !s.ui.consent))
    // A successful request replaces the whole session and shows the README.
    ensures !s.ui.analyzeDisabled && input != "" && FetchAnalysis(post(input)).Success? ==>
              var data := FetchAnalysis(post(input)).value;
              && r.session == Session(data.readme, input, true)
              && r.ui.visible == ShowScreen(s.page, ReadmeScreen)
              && r.ui.frames == TypingFrames(Utf16(data.readme))
              && r.ui.repoName == RepoUrl.DisplayName(input)
              && r.ui.bugPanel == (if data.bugs == [] then NoIssues else Handed(data.bugs))
              && (ReadmeScreen in s.page.menu ==>
                    r.ui.active == {FirstItem(s.page.menu, ReadmeScreen).value} && r.ui.notices == s.ui.notices)
              && r.ui.windows == s.ui.windows
              && r.ui.commitLabel == s.ui.commitLabel && r.ui.commitDisabled == s.ui.commitDisabled
  {
    if s.ui.analyzeDisabled then s
    else if input == "" then s.(ui := s.ui.(notices := s.ui.notices + [UrlRequired]))
    else
      var pending := AnalyzePending(s);
      var settled :=
        match FetchAnalysis(post(input))
        case Failure(m) => pending.(ui := pending.ui.(notices := pending.ui.notices + [AnalysisFailed(m)]))
        case Success(data) => ShowAnalysis(pending, input, data);
      settled.(ui := settled.ui.(analyzeBusy := false, analyzeDisabled := !settled.ui.consent))
  }

  /** An empty URL makes no request: the outcome does not depend on what the
      back end would answer. */
  lemma {:induction false} EmptyUrlPostsNothing(s: State, post: string -> AnalyzeReply, post': string -> AnalyzeReply)
    ensures AnalyzeClick(s, "", post) == AnalyzeClick(s, "", post')
  {
  }

  /** The session is updated all at once or not at all. */
  lemma {:induction false} AnalysisAllOrNothing(s: State, input: string, post: string -> AnalyzeReply)
    ensures var r := AnalyzeClick(s, input, post);
            r.session == s.session
            || (r.session.currentRepoUrl == input && input != ""
                && r.session.fullReadmeContent != "" && r.session.analysisHasBeenPerformed)
  {
  }

  /** A back end answering 500 with `{error: "boom"}` leaves the session as it
      was and the page reports "boom". */
  lemma {:induction false} FailedAnalysisExample(s: State, input: string)
    requires !s.ui.analyzeDisabled && input != ""
    ensures var r := AnalyzeClick(s, input, (_: string) => AnalyzeNotOk(Some("boom")));
            r.session == s.session && r.ui.notices == s.ui.notices + [AnalysisFailed("boom")]
  {
  }

  /** The state while the commit request is in flight. */
  function CommitPending(s: State): (r: State)
    ensures r.ui.commitDisabled && r.ui.commitLabel == CommitBusyLabel
    ensures r.session == s.session && r.page == s.page
  {
    s.(ui := s.ui.(commitLabel := CommitBusyLabel, commitDisabled := true))
  }

  /** The commit click passes the handler's guard: the button is enabled
      and there is a URL and a README to commit. */
  predicate CommitProceeds(s: State) {
    !s.ui.commitDisabled && s.session.currentRepoUrl != "" && s.session.fullReadmeContent != ""
  }

  /** A click on the commit button. */
  function CommitClick(s: State, post: (string, string) -> CommitReply): (r: State)
    ensures r.page == s.page && r.session == s.session
    ensures s.ui.commitDisabled || s.session.currentRepoUrl == "" || s.session.fullReadmeContent == "" ==>
              r == s
    ensures !s.ui.commitDisabled && s.session.currentRepoUrl != "" && s.session.fullReadmeContent != "" ==>
              var reply := FetchCommit(post(s.session.currentRepoUrl, s.session.fullReadmeContent));
              // One alert, perhaps one window, and the button as it was.
              r == s.(ui := s.ui.(
                     notices := s.ui.notices + [if reply.Failure? then CommitFailed(reply.message)
                                                else CommitReport(reply.value.0)],
                     windows := s.ui.windows + (if reply.Success? && Present(reply.value.1)
                                                then [reply.value.1.value] else [])))
  {
    if !CommitProceeds(s) then s
    else
      var pending := CommitPending(s);
      var ui :=
        match FetchCommit(post(s.session.currentRepoUrl, s.session.fullReadmeContent))
        case Failure(m) => pending.ui.(notices := pending.ui.notices + [CommitFailed(m)])
        case Success((message, url)) =>
          pending.ui.(notices := pending.ui.notices + [CommitReport(message)],
                      windows := pending.ui.windows + (if Present(url) then [url.value] else []));
      pending.(ui := ui.(commitLabel := s.ui.commitLabel, commitDisabled := false))
  }

  /** A commit with nothing to commit makes no request. */
  lemma {:induction false} EmptyCommitPostsNothing(s: State, post: (string, string) -> CommitReply,
                                post': (string, string) -> CommitReply)
    requires s.session.currentRepoUrl == "" || s.session.fullReadmeContent == ""
    ensures CommitClick(s, post) == CommitClick(s, post')
  {
  }

  /** The two ends of a commit from an analysed session: a 500 without an
      `error` field reports the default message; an OK reply with a URL
      reports the back end's message and opens that URL. */
  lemma {:induction false} CommitOutcomeExamples(s: State, message: string, url: string)
    requires Valid(s) && s.session.analysisHasBeenPerformed && url != ""
    ensures CommitClick(s, (_: string, _: string) => CommitNotOk(None)).ui.notices
         == s.ui.notices + [CommitFailed(UnknownCommitError)]
    ensures var r := CommitClick(s, (_: string, _: string) => CommitOk(message, Some(url)));
            r.ui.notices == s.ui.notices + [CommitReport(message)] && r.ui.windows == s.ui.windows + [url]
  {
  }

  /** A change of the consent checkbox. */
  function ConsentChanged(s: State, checked: bool): (r: State)
    ensures r.session == s.session && r.ui.consent == checked
    ensures r.ui.analyzeDisabled == !checked
  {
    s.(ui := s.ui.(consent := checked, analyzeDisabled := !checked))
  }

  /** The events the page reacts to. */
  datatype Event =
    | MenuClicked(item: nat)
    | AnalyzeClicked(input: string, analyze: string -> AnalyzeReply)
    | CommitClicked(commit: (string, string) -> CommitReply)
    | ConsentToggled(checked: bool)

  predicate Possible(s: State, e: Event) {
    e.MenuClicked? ==> e.item < |s.page.menu|
  }

  /** The page's reaction to one event. The page is fixed, and only an
      analyze click can change the session. */
  function Step(s: State, e: Event): (r: State)
    requires Possible(s, e)
    ensures r.page == s.page
    ensures !e.AnalyzeClicked? ==> r.session == s.session
  {
    match e
    case MenuClicked(item) => Navigate(s, item)
    case AnalyzeClicked(input, analyze) => AnalyzeClick(s, input, analyze)
    case CommitClicked(commit) => CommitClick(s, commit)
    case ConsentToggled(checked) => ConsentChanged(s, checked)
  }

  /** What holds between events: at most one screen visible and at most one
      menu item active, both among the page's elements; no request pending;
      and an analysed session has a README and a URL to commit. */
  ghost predicate Valid(s: State)
    ensures Valid(s) && s.session.analysisHasBeenPerformed ==> CommitProceeds(s)
  {
    && s.ui.visible <= s.page.screens && |s.ui.visible| <= 1
    && (forall i :: i in s.ui.active ==> i < |s.page.menu|) && |s.ui.active| <= 1
    && (s.session.analysisHasBeenPerformed ==>
          s.session.fullReadmeContent != "" && s.session.currentRepoUrl != "")
    && !s.ui.analyzeBusy && !s.ui.commitDisabled
  }

  /** The page after `DOMContentLoaded`: empty session, input screen shown. */
  function Init(page: Page, ui: Ui): (r: State)
    requires (forall i :: i in ui.active ==> i < |page.menu|) && |ui.active| <= 1
    requires !ui.analyzeBusy && !ui.commitDisabled
    ensures Valid(r)
    ensures r.session == Session("", "", false)
    ensures InputScreen in page.screens ==> r.ui.visible == {InputScreen}
  {
    State(page, Session("", "", false), ui.(visible := ShowScreen(page, InputScreen)))
  }

  /** Every event keeps the state valid. */
  lemma {:induction false} StepPreservesValid(s: State, e: Event)
    requires Valid(s) && Possible(s, e)
    ensures Valid(Step(s, e))
  {
    match e
    case MenuClicked(item) =>
    case AnalyzeClicked(input, analyze) => AnalyzePreservesValid(s, input, analyze);
    case CommitClicked(commit) =>
    case ConsentToggled(checked) =>
  }

  lemma {:induction false} AnalyzePreservesValid(s: State, input: string, post: string -> AnalyzeReply)
    requires Valid(s)
    ensures Valid(AnalyzeClick(s, input, post))
  {
    if !s.ui.analyzeDisabled && input != "" {
      var reply := FetchAnalysis(post(input));
      if reply.Success? {
        var pending := AnalyzePending(s);
        var shown := ShowAnalysis(pending, input, reply.value);
        var m := FirstItem(s.page.menu, ReadmeScreen);
        assert m.Some? ==> shown.ui.active == {m.value};
        assert m.None? ==> shown.ui.active == {};
        assert shown.session == Session(reply.value.readme, input, true);
      }
    }
  }

  /** Once an analysis has succeeded, a commit click always reaches the back
      end and reports its outcome. */
  lemma {:induction false} AnalysedSessionCommits(s: State, post: (string, string) -> CommitReply)
    requires Valid(s) && s.session.analysisHasBeenPerformed
    ensures |CommitClick(s, post).ui.notices| == |s.ui.notices| + 1
  {
  }
}

=== FILE: repo_url.dfy ===
/** The two ways the system reads a repository URL.

    The back end (`obter_dono_e_repositorio`) strips trailing slashes, splits on
    `/`, takes the last two pieces as owner and repository, and removes one
    `.git` suffix from the repository. The front end derives the name shown on
    the page from the last two pieces of the unstripped URL, joined back with
    `/`, and removes the first `.git` found anywhere in them. */
module RepoUrl {
  import opened Base
  import opened Text

  const GitSuffix: string := ".git"

  datatype OwnerRepo = OwnerRepo(owner: string, repo: string)

  /** Python's `if name.endswith(".git"): name = name[:-4]`. */
  function DropGitSuffix(name: string): (r: string)
    ensures EndsWith(name, GitSuffix) ==> r + GitSuffix == name
    ensures !EndsWith(name, GitSuffix) ==> r == name
  {
    if EndsWith(name, GitSuffix) then name[..|name| - |GitSuffix|] else name
  }

  /** The suffix is removed once, and only when it is a suffix. */
  lemma {:induction false} GitSuffixRemovedOnce(base: string)
    ensures DropGitSuffix(base + GitSuffix) == base
    ensures !EndsWith(base, GitSuffix) ==> DropGitSuffix(base) == base
  {
    var s := base + GitSuffix;
    assert s[|s| - |GitSuffix|..] == GitSuffix;
    assert s[..|s| - |GitSuffix|] == base;
  }

  lemma {:induction false} GitSuffixExamples()
    ensures DropGitSuffix("x.git.git") == "x.git"
    ensures DropGitSuffix("a.gitx") == "a.gitx"
  {
    GitSuffixRemovedOnce("x.git");
    assert "x.git" + GitSuffix == "x.git.git";
    assert !EndsWith("a.gitx", GitSuffix) by {
      assert "a.gitx"[2..] == "gitx";
    }
  }

  /** `obter_dono_e_repositorio`: `None` stands for the `(None, None)` pair the
      source returns when indexing `parts[-2]` raises. */
  function OwnerAndRepo(url: string): (r: Option<OwnerRepo>)
    ensures r.None? <==> '/' !in TrimEnd(url, IsSlash)
    ensures r.Some? ==> '/' !in r.value.owner && '/' !in r.value.repo
  {
    var parts := Split(TrimEnd(url, IsSlash), '/');
    if |parts| < 2 then None
    else
      var raw := parts[|parts| - 1];
      assert DropGitSuffix(raw) <= raw;
      Some(OwnerRepo(parts[|parts| - 2], DropGitSuffix(raw)))
  }

  /** `prefix` is empty or ends at a separator, so `prefix + owner` starts a
      fresh segment. */
  predicate SegmentStart(prefix: string) {
    prefix == [] || prefix[|prefix| - 1] == '/'
  }

  /** The last two separator-free segments of a URL, however many trailing
      slashes follow, are its owner and (suffix-stripped) repository. */
  lemma {:induction false} LastTwoSegments(prefix: string, owner: string, raw: string, slashes: string)
    requires SegmentStart(prefix)
    requires '/' !in owner && '/' !in raw && raw != []
    requires AllOf(slashes, IsSlash)
    ensures OwnerAndRepo(prefix + owner + "/" + raw + slashes)
         == Some(OwnerRepo(owner, DropGitSuffix(raw)))
  {
    var kept := prefix + owner + "/" + raw;
    assert prefix + owner + "/" + raw + slashes == kept + slashes;
    assert kept[|kept| - 1] == raw[|raw| - 1];
    TrimEndUnique(kept, slashes, IsSlash);
    assert Split(kept, '/')[|Split(kept, '/')| - 2..] == [owner, raw] by {
      SplitTail(prefix, owner, raw);
    }
  }

  /** Two separator-free segments joined by one separator split back into
      exactly those two. */
  lemma {:induction false} SplitPair(owner: string, raw: string)
    requires '/' !in owner && '/' !in raw
    ensures Split(owner + ['/'] + raw, '/') == [owner, raw]
  {
    SplitAppend(owner, raw, '/');
    assert Split(owner, '/') == [owner];
    assert Split(raw, '/') == [raw];
  }

  lemma {:induction false} SplitAfterFront(front: string, owner: string, raw: string)
    requires '/' !in owner && '/' !in raw
    ensures Split(front + ['/'] + (owner + ['/'] + raw), '/') == Split(front, '/') + [owner, raw]
  {
    SplitPair(owner, raw);
    SplitAppend(front, owner + ['/'] + raw, '/');
  }

  /** Splitting `prefix + owner + "/" + raw` ends with `[owner, raw]`. */
  lemma {:induction false} SplitTail(prefix: string, owner: string, raw: string)
    requires SegmentStart(prefix)
    requires '/' !in owner && '/' !in raw
    ensures var parts := Split(prefix + owner + "/" + raw, '/');
            |parts| >= 2 && parts[|parts| - 2..] == [owner, raw]
  {
    var s := prefix + owner + "/" + raw;
    var back := owner + ['/'] + raw;
    if prefix == [] {
      assert s == back;
      SplitPair(owner, raw);
    } else {
      var front := prefix[..|prefix| - 1];
      assert s == front + ['/'] + back;
      SplitAfterFront(front, owner, raw);
      var parts := Split(s, '/');
      assert parts == Split(front, '/') + [owner, raw];
    }
  }

  /** The text of the `.repo-name` spans:
      `repoUrl.split('/').slice(-2).join('/').replace('.git', '')`. */
  function DisplayName(url: string): (r: string)
    ensures |r| <= |url|
    ensures '/' !in url ==> r == ReplaceFirst(url, GitSuffix, "")
  {
    var parts := Split(url, '/');
    var shown := Join(LastTwo(parts), '/');
    JoinSuffixShorter(parts, |parts| - |LastTwo(parts)|, '/');
    ReplaceFirst(shown, GitSuffix, "")
  }

  /** Joining a suffix of the pieces gives no longer a text than joining
      them all. */
  lemma {:induction false} JoinSuffixShorter(parts: seq<string>, k: nat, sep: char)
    requires k < |parts|
    ensures |Join(parts[k..], sep)| <= |Join(parts, sep)|
    decreases k
  {
    if k > 0 {
      JoinSuffixShorter(parts[1..], k - 1, sep);
      assert parts[1..][k - 1..] == parts[k..];
    }
  }

  /** JavaScript's `parts.slice(-2)`: the last two elements, or all of them
      when there are fewer. */
  function LastTwo<T>(parts: seq<T>): (r: seq<T>)
    ensures |r| == if |parts| < 2 then |parts| else 2
    ensures r == parts[|parts| - |r|..]
  {
    if |parts| <= 2 then parts else parts[|parts| - 2..]
  }

  /** `.git` has no proper border, so an occurrence of it cannot straddle the
      end of a text that does not contain it and the start of a further `.gi`. */
  lemma {:induction false} NoGitAcrossBoundary(a: string)
    requires !Contains(a, GitSuffix)
    ensures !Contains(a + ".gi", GitSuffix)
    decreases |a|
  {
    var s := a + ".gi";
    if a != [] {
      assert s[1..] == a[1..] + ".gi";
      NoGitAcrossBoundary(a[1..]);
      if |a| >= 4 {
        assert s[..4] == a[..4];
      } else {
        assert s[3] == ".gi"[3 - |a|];
      }
    }
  }

  /** The display name of a URL whose split ends with `[owner, name]` is
      `owner/name` with its first `.git` removed. */
  lemma {:induction false} DisplayOfLastTwo(prefix: string, owner: string, name: string)
    requires SegmentStart(prefix)
    requires '/' !in owner && '/' !in name
    ensures DisplayName(prefix + owner + "/" + name)
         == ReplaceFirst(owner + "/" + name, GitSuffix, "")
  {
    var parts := Split(prefix + owner + "/" + name, '/');
    SplitTail(prefix, owner, name);
    assert LastTwo(parts) == [owner, name];
    assert Join([owner, name], '/') == owner + "/" + name;
  }

  /** On a URL without a trailing slash and without `.git` in its last two
      segments, both readings agree: the display name is `owner/repo` of the
      parsed pair. */
  lemma {:induction false} AgreeOnPlainUrl(prefix: string, owner: string, name: string)
    requires SegmentStart(prefix)
    requires '/' !in owner && '/' !in name && name != []
    requires !Contains(owner + "/" + name, GitSuffix)
    ensures OwnerAndRepo(prefix + owner + "/" + name) == Some(OwnerRepo(owner, name))
    ensures DisplayName(prefix + owner + "/" + name) == owner + "/" + name
  {
    var t := owner + "/" + name;
    assert !EndsWith(name, GitSuffix) by {
      assert EndsWith(name, GitSuffix) ==> t[|t| - 4..] == name[|name| - 4..];
      if EndsWith(name, GitSuffix) {
        ContainsAt(t, GitSuffix, |t| - 4);
      }
    }
    GitSuffixRemovedOnce(name);
    LastTwoSegments(prefix, owner, name, "");
    assert prefix + owner + "/" + name + "" == prefix + owner + "/" + name;
    DisplayOfLastTwo(prefix, owner, name);
  }

  /** Removing the first `.git` from a text that contains none before its
      final `.git` removes that final one. */
  lemma {:induction false} ReplaceFinalGit(t: string)
    requires !Contains(t, GitSuffix)
    ensures ReplaceFirst(t + GitSuffix, GitSuffix, "") == t
  {
    NoGitAcrossBoundary(t);
    assert GitSuffix[..|GitSuffix| - 1] == ".gi";
    ReplaceFirstAt(t, GitSuffix, "", "");
    assert t + GitSuffix + "" == t + GitSuffix;
    assert t + "" + "" == t;
  }

  /** With a `.git` suffix on the repository (and no other `.git` in the last
      two segments) both readings drop it and still agree. */
  lemma {:induction false} AgreeOnGitUrl(prefix: string, owner: string, base: string)
    requires SegmentStart(prefix)
    requires '/' !in owner && '/' !in base
    requires !Contains(owner + "/" + base, GitSuffix)
    ensures OwnerAndRepo(prefix + owner + "/" + (base + GitSuffix)) == Some(OwnerRepo(owner, base))
    ensures DisplayName(prefix + owner + "/" + (base + GitSuffix)) == owner + "/" + base
  {
    ParseGitUrl(prefix, owner, base);
    DisplayGitUrl(prefix, owner, base);
  }

  lemma {:induction false} Reassociate(a: string, b: string, c: string)
    ensures a + (b + c) == a + b + c
  {
  }

  lemma {:induction false} NoSlashInGitName(base: string)
    requires '/' !in base
    ensures '/' !in base + GitSuffix
  {
    var name := base + GitSuffix;
    assert forall k :: 0 <= k < |name| ==> name[k] == if k < |base| then base[k] else GitSuffix[k - |base|];
  }

  lemma {:induction false} DisplayGitUrl(prefix: string, owner: string, base: string)
    requires SegmentStart(prefix)
    requires '/' !in owner && '/' !in base
    requires !Contains(owner + "/" + base, GitSuffix)
    ensures DisplayName(prefix + owner + "/" + (base + GitSuffix)) == owner + "/" + base
  {
    var name := base + GitSuffix;
    NoSlashInGitName(base);
    DisplayOfLastTwo(prefix, owner, name);
    var head := owner + "/";
    Reassociate(head, base, GitSuffix);
    ReplaceFinalGit(head + base);
  }

  lemma {:induction false} ParseGitUrl(prefix: string, owner: string, base: string)
    requires SegmentStart(prefix)
    requires '/' !in owner && '/' !in base
    ensures OwnerAndRepo(prefix + owner + "/" + (base + GitSuffix)) == Some(OwnerRepo(owner, base))
  {
    var name := base + GitSuffix;
    var url := prefix + owner + "/" + name;
    assert url + "" == url;
    GitSuffixRemovedOnce(base);
    LastTwoSegments(prefix, owner, name, "");
  }

  /** A trailing slash splits the readings apart: the back end still finds
      `owner`/`name`, while the front end shows `name/`. */
  lemma {:induction false} DivergeOnTrailingSlash(prefix: string, owner: string, name: string)
    requires SegmentStart(prefix)
    requires '/' !in owner && '/' !in name && name != []
    requires !Contains(name + "/", GitSuffix)
    ensures OwnerAndRepo(prefix + owner + "/" + name + "/")
         == Some(OwnerRepo(owner, DropGitSuffix(name)))
    ensures DisplayName(prefix + owner + "/" + name + "/") == name + "/"
  {
    LastTwoSegments(prefix, owner, name, "/");
    var front := prefix + owner + "/";
    assert prefix + owner + "/" + name + "/" == front + name + "/" + [];
    assert front[|front| - 1] == '/';
    DisplayOfLastTwo(front, name, []);
    assert name + "/" + [] == name + "/";
  }

  lemma {:induction false} ReplaceInnerGit()
    ensures ReplaceFirst("o.gitx/r", GitSuffix, "") == "ox/r"
  {
    assert !Contains("o.gi", GitSuffix) by {
      assert "o.gi"[0] != GitSuffix[0];
      assert |"o.gi"[1..]| < |GitSuffix|;
    }
    assert "o" + GitSuffix[..|GitSuffix| - 1] == "o.gi";
    ReplaceFirstAt("o", GitSuffix, "x/r", "");
    assert "o" + GitSuffix + "x/r" == "o.gitx/r";
    assert "o" + "" + "x/r" == "ox/r";
  }

  /** A `.git` inside the owner segment is removed by the front end only. */
  lemma {:induction false} DivergeOnInnerGit()
    ensures OwnerAndRepo("o.gitx/r") == Some(OwnerRepo("o.gitx", "r"))
    ensures DisplayName("o.gitx/r") == "ox/r"
  {
    // The URL in the shape each of the three lemmas below states it.
    assert "" + "o.gitx" + "/" + "r" + "" == "o.gitx/r";
    assert "" + "o.gitx" + "/" + "r" == "o.gitx/r";
    assert "o.gitx" + "/" + "r" == "o.gitx/r";
    assert !EndsWith("r", GitSuffix);
    LastTwoSegments("", "o.gitx", "r", "");
    DisplayOfLastTwo("", "o.gitx", "r");
    ReplaceInnerGit();
  }

  /** Python raises on `parts[-2]` when stripping leaves no separator; this
      includes the empty string and a URL made only of slashes. */
  lemma {:induction false} TooFewSegments(url: string)
    requires AllOf(url, IsSlash) || '/' !in url
    ensures OwnerAndRepo(url) == None
  {
    if AllOf(url, IsSlash) {
      TrimEndUnique([], url, IsSlash);
      assert [] + url == url;
    } else {
      assert TrimEnd(url, IsSlash) <= url;
    }
  }
}

=== FILE: text.dfy ===
/** String operations shared by the back end (Python `str`) and the front end
    (JavaScript `String`), over `seq<char>`. Each is given the semantics of the
    library call it stands for: `rstrip`/`strip`, `split` with a one-character
    separator, `join`, `indexOf`, `replace` of the first occurrence (JavaScript)
    and of all occurrences (Python). */
module Text {

  /** Characters Python's `str.isspace` accepts, which `str.strip()` removes. */
  predicate IsSpace(c: char) {
    ('\t' <= c <= '\r') || ('\U{1c}' <= c <= ' ') || c == '\U{85}' || c == '\U{a0}'
    || c == '\U{1680}' || ('\U{2000}' <= c <= '\U{200a}') || c == '\U{2028}'
    || c == '\U{2029}' || c == '\U{202f}' || c == '\U{205f}' || c == '\U{3000}'
  }

  predicate IsSlash(c: char) {
    c == '/'
  }

  /** Every character of `s` satisfies `drop`. */
  ghost predicate AllOf(s: string, drop: char -> bool) {
    forall k :: 0 <= k < |s| ==> drop(s[k])
  }

  predicate EndsWith(s: string, suffix: string) {
    |suffix| <= |s| && s[|s| - |suffix|..] == suffix
  }

  /** Removes the leading characters that satisfy `drop`. */
  function TrimStart(s: string, drop: char -> bool): (r: string)
    ensures |r| <= |s| && r == s[|s| - |r|..]
    ensures AllOf(s[..|s| - |r|], drop)
    ensures r == [] || !drop(r[0])
    ensures r == [] <==> AllOf(s, drop)
    decreases |s|
  {
    if s != [] && drop(s[0]) then
      var r := TrimStart(s[1..], drop);
      AllOfCons(s, drop);
      AllOfCons(s[..|s| - |r|], drop);
      assert s[..|s| - |r|][1..] == s[1..][..|s[1..]| - |r|];
      r
    else s
  }

  lemma {:induction false} AllOfCons(s: string, drop: char -> bool)
    requires s != []
    ensures AllOf(s, drop) <==> drop(s[0]) && AllOf(s[1..], drop)
  {
    assert forall k :: 1 <= k < |s| ==> s[k] == s[1..][k - 1];
  }

  /** Removes the trailing characters that satisfy `drop` (`str.rstrip`). */
  function TrimEnd(s: string, drop: char -> bool): (r: string)
    ensures r <= s
    ensures AllOf(s[|r|..], drop)
    ensures r == [] || !drop(r[|r| - 1])
    ensures r == [] <==> AllOf(s, drop)
    decreases |s|
  {
    if s != [] && drop(s[|s| - 1]) then TrimEnd(s[..|s| - 1], drop) else s
  }

  /** TrimStart removes exactly a leading run of dropped characters: a string
      made of such a run and a remainder that does not start with a dropped
      character trims to the remainder. */
  lemma {:induction false} TrimStartUnique(head: string, rest: string, drop: char -> bool)
    requires AllOf(head, drop)
    requires rest == [] || !drop(rest[0])
    ensures TrimStart(head + rest, drop) == rest
    decreases |head|
  {
    if head != [] {
      assert (head + rest)[0] == head[0];
      assert (head + rest)[1..] == head[1..] + rest;
      TrimStartUnique(head[1..], rest, drop);
    }
  }

  /** TrimEnd removes exactly a trailing run of dropped characters. */
  lemma {:induction false} TrimEndUnique(kept: string, tail: string, drop: char -> bool)
    requires AllOf(tail, drop)
    requires kept == [] || !drop(kept[|kept| - 1])
    ensures TrimEnd(kept + tail, drop) == kept
    decreases |tail|
  {
    var s := kept + tail;
    if tail == [] {
      assert s == kept;
    } else {
      assert s[|s| - 1] == tail[|tail| - 1];
      assert s[..|s| - 1] == kept + tail[..|tail| - 1];
      TrimEndUnique(kept, tail[..|tail| - 1], drop);
    }
  }

  /** Python's `str.strip()` with no argument. */
  function Strip(s: string): (r: string)
    ensures |r| <= |s|
    ensures r == [] || (!IsSpace(r[0]) && !IsSpace(r[|r| - 1]))
    ensures r == [] <==> AllOf(s, IsSpace)
  {
    var left := TrimStart(s, IsSpace);
    var r := TrimEnd(left, IsSpace);
    assert r != [] ==> r[0] == left[0];
    r
  }

  /** Strip removes exactly the whitespace margins: a string made of a
      whitespace head, a core that neither starts nor ends with whitespace, and
      a whitespace tail strips to the core. */
  lemma {:induction false} StripUnique(head: string, core: string, tail: string)
    requires AllOf(head, IsSpace) && AllOf(tail, IsSpace)
    requires core == [] || (!IsSpace(core[0]) && !IsSpace(core[|core| - 1]))
    ensures Strip(head + core + tail) == core
  {
    var s := head + core + tail;
    if core == [] {
      assert AllOf(s, IsSpace) by {
        forall k | 0 <= k < |s| ensures IsSpace(s[k]) {
          if k < |head| { assert s[k] == head[k]; } else { assert s[k] == tail[k - |head|]; }
        }
      }
    } else {
      assert s == head + (core + tail);
      TrimStartUnique(head, core + tail, IsSpace);
      TrimEndUnique(core, tail, IsSpace);
    }
  }

  /** `s.split(sep)` for a one-character separator, in Python and JavaScript
      alike: the pieces between separators, at least one, possibly empty. */
  function Split(s: string, sep: char): (parts: seq<string>)
    ensures |parts| >= 1
    ensures forall i :: 0 <= i < |parts| ==> sep !in parts[i]
    ensures Join(parts, sep) == s
    ensures sep !in s <==> parts == [s]
  {
    PiecesSeparatorFree(s, sep);
    PiecesJoin(s, sep);
    PiecesWithoutSeparator(s, sep);
    Pieces(s, sep)
  }

  /** The scan behind Split: one character at a time, a separator starts a
      new piece and any other character extends the first piece. */
  function Pieces(s: string, sep: char): (parts: seq<string>)
    ensures |parts| >= 1
    decreases |s|
  {
    if s == [] then [[]]
    else
      var rest := Pieces(s[1..], sep);
      if s[0] == sep then [[]] + rest else [[s[0]] + rest[0]] + rest[1..]
  }

  lemma {:induction false} PiecesSeparatorFree(s: string, sep: char)
    ensures forall i :: 0 <= i < |Pieces(s, sep)| ==> sep !in Pieces(s, sep)[i]
    decreases |s|
  {
    if s != [] {
      PiecesSeparatorFree(s[1..], sep);
    }
  }

  lemma {:induction false} PiecesJoin(s: string, sep: char)
    ensures Join(Pieces(s, sep), sep) == s
    decreases |s|
  {
    if s != [] {
      var rest := Pieces(s[1..], sep);
      PiecesJoin(s[1..], sep);
      if s[0] == sep {
        assert s == [sep] + s[1..];
        assert ([[]] + rest)[1..] == rest;
      } else {
        JoinCons(s[0], rest, sep);
        assert s == [s[0]] + s[1..];
      }
    }
  }

  lemma {:induction false} PiecesWithoutSeparator(s: string, sep: char)
    ensures sep !in s <==> Pieces(s, sep) == [s]
    decreases |s|
  {
    var parts := Pieces(s, sep);
    PiecesSeparatorFree(s, sep);
    assert parts == [s] ==> sep !in parts[0];
    if s != [] && sep !in s {
      assert s[0] != sep && sep !in s[1..];
      PiecesWithoutSeparator(s[1..], sep);
      var rest := Pieces(s[1..], sep);
      assert rest == [s[1..]];
      assert parts == [[s[0]] + s[1..]];
      assert s == [s[0]] + s[1..];
    }
  }

  /** `parts.join(sep)`: the pieces in order with one separator between
      neighbours, so the text starts with the first piece and ends with the
      last. */
  function Join(parts: seq<string>, sep: char): (r: string)
    ensures |parts| >= 1 ==> parts[0] <= r
    decreases |parts|
  {
    if |parts| == 0 then []
    else if |parts| == 1 then parts[0]
    else parts[0] + [sep] + Join(parts[1..], sep)
  }

  /** The joined text ends with the last piece. */
  lemma {:induction false} JoinEndsWithLast(parts: seq<string>, sep: char)
    requires |parts| >= 1
    ensures EndsWith(Join(parts, sep), parts[|parts| - 1])
    decreases |parts|
  {
    if |parts| >= 2 {
      JoinEndsWithLast(parts[1..], sep);
      var rest := Join(parts[1..], sep);
      var whole := parts[0] + [sep] + rest;
      assert whole[|whole| - |rest|..] == rest;
    }
  }

  lemma {:induction false} JoinCons(c: char, parts: seq<string>, sep: char)
    requires |parts| >= 1
    ensures Join([[c] + parts[0]] + parts[1..], sep) == [c] + Join(parts, sep)
  {
    var q := [[c] + parts[0]] + parts[1..];
    if |parts| > 1 {
      assert q[1..] == parts[1..];
    }
  }

  lemma {:induction false} JoinAppend(a: seq<string>, b: seq<string>, sep: char)
    requires |a| >= 1 && |b| >= 1
    ensures Join(a + b, sep) == Join(a, sep) + [sep] + Join(b, sep)
    decreases |a|
  {
    var ab := a + b;
    assert ab[0] == a[0] && |ab| >= 2;
    assert Join(ab, sep) == a[0] + [sep] + Join(ab[1..], sep);
    if |a| == 1 {
      assert ab[1..] == b;
    } else {
      assert ab[1..] == a[1..] + b;
      JoinAppend(a[1..], b, sep);
      assert Join(a, sep) == a[0] + [sep] + Join(a[1..], sep);
    }
  }

  /** Splitting at a separator splits the two sides independently. */
  lemma {:induction false} SplitAppend(x: string, y: string, sep: char)
    ensures Split(x + [sep] + y, sep) == Split(x, sep) + Split(y, sep)
    decreases |x|
  {
    PiecesAppend(x, y, sep);
  }

  lemma {:induction false} PiecesAppend(x: string, y: string, sep: char)
    ensures Pieces(x + [sep] + y, sep) == Pieces(x, sep) + Pieces(y, sep)
    decreases |x|
  {
    var s := x + [sep] + y;
    if x == [] {
      assert s[1..] == y;
    } else {
      assert s[1..] == x[1..] + [sep] + y;
      PiecesAppend(x[1..], y, sep);
    }
  }

  /** Split inverts Join on separator-free pieces, so Split and Join are
      inverse to each other. */
  lemma {:induction false} SplitJoin(parts: seq<string>, sep: char)
    requires |parts| >= 1
    requires forall i :: 0 <= i < |parts| ==> sep !in parts[i]
    ensures Split(Join(parts, sep), sep) == parts
    decreases |parts|
  {
    if |parts| > 1 {
      SplitJoin(parts[1..], sep);
      SplitAppend(parts[0], Join(parts[1..], sep), sep);
      assert parts == [parts[0]] + parts[1..];
    }
  }

  /** `p` occurs somewhere in `s`. */
  predicate Contains(s: string, p: string)
    decreases |s|
  {
    |p| <= |s| && (p <= s || Contains(s[1..], p))
  }

  lemma {:induction false} ContainsAt(s: string, p: string, i: nat)
    requires i + |p| <= |s| && s[i..i + |p|] == p
    ensures Contains(s, p)
    decreases i
  {
    if i > 0 {
      assert s[1..][i - 1..i - 1 + |p|] == s[i..i + |p|];
      ContainsAt(s[1..], p, i - 1);
    }
  }

  /** JavaScript's `s.indexOf(p)`: the first position where `p` occurs, or -1. */
  function IndexOf(s: string, p: string): (r: int)
    requires |p| > 0
    ensures r == -1 || 0 <= r <= |s| - |p|
    ensures r == -1 <==> !Contains(s, p)
    ensures r >= 0 ==> s[r..r + |p|] == p && !Contains(s[..r + |p| - 1], p)
    decreases |s|
  {
    if |s| < |p| then -1
    else if p <= s then 0
    else
      var k := IndexOf(s[1..], p);
      if k < 0 then -1
      else
        IndexOfStep(s, p, k);
        k + 1
  }

  /** The recursive step of IndexOf: a first occurrence at `k` in `s[1..]`,
      when `p` is not a prefix of `s`, is a first occurrence at `k + 1` in `s`. */
  lemma {:induction false} IndexOfStep(s: string, p: string, k: nat)
    requires |p| > 0 && |p| <= |s| && !(p <= s)
    requires k + |p| <= |s| - 1
    requires s[1..][k..k + |p|] == p && !Contains(s[1..][..k + |p| - 1], p)
    ensures s[k + 1..k + 1 + |p|] == p
    ensures !Contains(s[..k + |p|], p)
  {
    assert s[1..][k..k + |p|] == s[k + 1..k + 1 + |p|];
    var t := s[..k + |p|];
    assert t[1..] == s[1..][..k + |p| - 1];
    assert t[..|p|] == s[..|p|];
  }

  /** JavaScript's `s.replace(p, rep)` with a string pattern: only the first
      occurrence is replaced. */
  function ReplaceFirst(s: string, p: string, rep: string): (r: string)
    requires |p| > 0
    ensures !Contains(s, p) ==> r == s
    ensures Contains(s, p) ==> |r| == |s| - |p| + |rep|
  {
    var i := IndexOf(s, p);
    if i < 0 then s else s[..i] + rep + s[i + |p|..]
  }

  /** Two occurrences of `p`, each with no occurrence ending before it
      ends, are the same occurrence. */
  lemma {:induction false} FirstOccurrenceUnique(s: string, p: string, i: nat, j: nat)
    requires |p| > 0 && i + |p| <= |s| && j + |p| <= |s|
    requires s[i..i + |p|] == p && !Contains(s[..i + |p| - 1], p)
    requires s[j..j + |p|] == p && !Contains(s[..j + |p| - 1], p)
    ensures i == j
  {
    if i < j {
      assert s[..j + |p| - 1][i..i + |p|] == p;
      ContainsAt(s[..j + |p| - 1], p, i);
      assert false;
    } else if j < i {
      assert s[..i + |p| - 1][j..j + |p|] == p;
      ContainsAt(s[..i + |p| - 1], p, j);
      assert false;
    }
  }

  /** When the occurrence after `a` is the first one, ReplaceFirst replaces
      exactly that one and keeps everything around it. */
  lemma {:induction false} ReplaceFirstAt(a: string, p: string, b: string, rep: string)
    requires |p| > 0
    requires !Contains(a + p[..|p| - 1], p)
    ensures ReplaceFirst(a + p + b, p, rep) == a + rep + b
  {
    var s := a + p + b;
    ThreePieces(a, p, b);
    IndexOfAt(s, p, |a|);
  }

  /** An occurrence with no occurrence ending before it is what IndexOf
      finds. */
  lemma {:induction false} IndexOfAt(s: string, p: string, j: nat)
    requires |p| > 0 && j + |p| <= |s|
    requires s[j..j + |p|] == p && !Contains(s[..j + |p| - 1], p)
    ensures IndexOf(s, p) == j
  {
    ContainsAt(s, p, j);
    FirstOccurrenceUnique(s, p, IndexOf(s, p), j);
  }

  /** The slices of `a + p + b` at the borders of its pieces. */
  lemma {:induction false} ThreePieces(a: string, p: string, b: string)
    requires |p| > 0
    ensures var s := a + p + b;
            && s[..|a|] == a && s[|a|..|a| + |p|] == p && s[|a| + |p|..] == b
            && s[..|a| + |p| - 1] == a + p[..|p| - 1]
  {
  }

  /** Python's `s.replace(p, rep)`: every occurrence, scanning left to right,
      without overlaps. */
  function ReplaceAll(s: string, p: string, rep: string): (r: string)
    requires |p| > 0
    ensures !Contains(s, p) ==> r == s
    ensures rep == p ==> r == s
    ensures |rep| == |p| ==> |r| == |s|
    decreases |s|
  {
    if |s| < |p| then s
    else if p <= s then rep + ReplaceAll(s[|p|..], p, rep)
    else
      assert s == [s[0]] + s[1..];
      [s[0]] + ReplaceAll(s[1..], p, rep)
  }

  /** An occurrence of `p + q` is an occurrence of `p`. */
  lemma {:induction false} ContainsLonger(s: string, p: string, q: string)
    ensures Contains(s, p + q) ==> Contains(s, p)
    decreases |s|
  {
    if Contains(s, p + q) {
      if p + q <= s {
        assert s[..|p|] == (p + q)[..|p|] == p;
      } else {
        ContainsLonger(s[1..], p, q);
      }
    }
  }
}

=== FILE: typing.dfy ===
/** The typing animation of the README panel (`typeReadme`), reduced to the
    sequence of texts handed to the markdown renderer. The pause between
    frames and the renderer itself are not modelled.

    A JavaScript string is a sequence of UTF-16 code units: `length` and
    indexing count units, so a character outside the Basic Multilingual
    Plane is typed in two steps, the first showing a lone high surrogate. */
module Typing {

  /** One UTF-16 code unit. */
  type CodeUnit = x: int | 0 <= x < 0x1_0000

  /** A character that UTF-16 encodes as a single unit. */
  predicate Bmp(c: char) {
    (c as int) < 0x1_0000
  }

  /** The code point a one- or two-unit sequence encodes. */
  function CodePoint(u: seq<CodeUnit>): int
    requires 1 <= |u| <= 2
  {
    if |u| == 1 then u[0]
    else
      var high: int := u[0];
      var low: int := u[1];
      0x1_0000 + (high - 0xD800) * 0x400 + (low - 0xDC00)
  }

  /** The UTF-16 encoding of one character: itself below U+10000, otherwise
      a high surrogate followed by a low surrogate. */
  function Units(c: char): (u: seq<CodeUnit>)
    ensures |u| == if Bmp(c) then 1 else 2
    ensures |u| == 2 ==> 0xD800 <= u[0] < 0xDC00 && 0xDC00 <= u[1] < 0xE000
    ensures CodePoint(u) == c as int
  {
    var n := c as int;
    if n < 0x1_0000 then [n]
    else [0xD800 + (n - 0x1_0000) / 0x400, 0xDC00 + (n - 0x1_0000) % 0x400]
  }

  /** A Dafny string as the page sees it: the UTF-16 units of its
      characters, in order. It has exactly one unit per character when every
      character lies in the Basic Multilingual Plane, and more otherwise. */
  function Utf16(t: string): (u: seq<CodeUnit>)
    ensures |u| >= |t|
    ensures |u| == |t| <==> forall i :: 0 <= i < |t| ==> Bmp(t[i])
    decreases |t|
  {
    if t == [] then []
    else
      var rest := Utf16(t[1..]);
      assert forall i :: 1 <= i < |t| ==> t[i] == t[1..][i - 1];
      Units(t[0]) + rest
  }

  /** A one-character string is encoded as that character's units. */
  lemma {:induction false} Utf16Single(c: char)
    ensures Utf16([c]) == Units(c)
  {
    assert [c][1..] == [];
  }

  /** The encoding of a concatenation is the concatenation of the encodings;
      with `Utf16Single`, every character contributes exactly its own units,
      in order. */
  lemma {:induction false} Utf16Append(a: string, b: string)
    ensures Utf16(a + b) == Utf16(a) + Utf16(b)
    decreases |a|
  {
    if a == [] {
      assert a + b == b;
    } else {
      assert (a + b)[0] == a[0] && (a + b)[1..] == a[1..] + b;
      Utf16Append(a[1..], b);
    }
  }

  /** One write of the panel: the markdown source rendered, as code units,
      and whether the typing cursor follows it. */
  datatype Frame = Frame(text: seq<CodeUnit>, cursor: bool)

  /** The frames shown while `t` is typed: each non-empty prefix with the
      cursor, then the whole text without it. */
  function TypingFrames(t: seq<CodeUnit>): (frames: seq<Frame>)
    ensures |frames| == |t| + 1
    ensures forall k :: 0 <= k < |t| ==> frames[k] == Frame(t[..k + 1], true)
    ensures frames[|t|] == Frame(t, false)
    decreases |t|
  {
    if t == [] then [Frame([], false)]
    else
      var u := t[..|t| - 1];
      var before := TypingFrames(u);
      before[..|u|] + [Frame(t, true), Frame(t, false)]
  }

  /** The loop of `typeReadme`: append one unit, render the text so far
      with the cursor, and after the loop render the whole text without it. */
  method TypeReadme(t: seq<CodeUnit>) returns (frames: seq<Frame>)
    ensures frames == TypingFrames(t)
  {
    var current := [];
    frames := [];
    var i := 0;
    while i < |t|
      invariant 0 <= i <= |t|
      invariant current == t[..i]
      invariant |frames| == i
      invariant forall k :: 0 <= k < i ==> frames[k] == Frame(t[..k + 1], true)
    {
      current := current + [t[i]];
      frames := frames + [Frame(current, true)];
      i := i + 1;
    }
    frames := frames + [Frame(t, false)];
    assert current == t;
  }

  /** Successive frames grow by exactly one unit, and only the final frame
      lacks the cursor. */
  lemma {:induction false} FramesGrowByOne(t: seq<CodeUnit>, k: nat)
    requires k < |t|
    ensures TypingFrames(t)[k].text <= TypingFrames(t)[k + 1].text
    ensures |TypingFrames(t)[k + 1].text| == |TypingFrames(t)[k].text| + 1 || k + 1 == |t|
    ensures TypingFrames(t)[k].cursor && (TypingFrames(t)[k + 1].cursor <==> k + 1 < |t|)
  {
  }

  /** A text of Basic Multilingual Plane characters takes one frame per
      character, plus the final one. */
  lemma {:induction false} BmpFrameCount(t: string)
    requires forall i :: 0 <= i < |t| ==> Bmp(t[i])
    ensures |TypingFrames(Utf16(t))| == |t| + 1
  {
  }

  lemma {:induction false} TypingAB()
    ensures TypingFrames(Utf16("AB")) == [Frame([65], true), Frame([65, 66], true), Frame([65, 66], false)]
  {
    var u := Utf16("AB");
    assert "AB"[1..] == "B" && "B"[1..] == "";
    assert u == [65, 66];
    var f := TypingFrames(u);
    assert f[0] == Frame(u[..1], true);
    assert u[..1] == [65];
    assert f[1] == Frame(u[..2], true);
    assert u[..2] == u;
  }

  /** U+1F680 is typed in two steps: the first frame holds only its high
      surrogate. */
  lemma {:induction false} TypingRocket()
    ensures TypingFrames(Utf16("\U{1F680}"))
         == [Frame([0xD83D], true), Frame([0xD83D, 0xDE80], true), Frame([0xD83D, 0xDE80], false)]
  {
    var u := Utf16("\U{1F680}");
    assert "\U{1F680}"[1..] == "";
    assert u == [0xD83D, 0xDE80];
    var f := TypingFrames(u);
    assert f[0] == Frame(u[..1], true);
    assert u[..1] == [0xD83D];
    assert f[1] == Frame(u[..2], true);
    assert u[..2] == u;
  }
}
